=== FILE: README.md ===
# DNA k-means over MPI: the integer and categorical core

This project models the integer and categorical side of a distributed k-means
clusterer for DNA strands. The model is in Dafny. The clusterer exists in three forms:

- C programs driven by MPI (`DNAKMeansMPI.c`, `kMeansMPI.c`, `TwoDKMeansMPI.c`, with helpers in `util.c`);
- a single-process Java test driver (`test/ClusterDNA.java`);
- an unfinished sequential Java program (`sequential/ClusterDNA.java`), of which only the seeding is complete.

What is modelled:

- **Partition planner** (`Partition`):
  - the common share `handleNumbers` and the per-worker element counts `handleLines`;
  - the prefix-sum offsets `startIndexes`;
  - the counts divided back down to record counts for the label gather, using C's truncating division;
  - a record-aligned planner that repairs the remainder handling.
- **MPI collectives** (`Collectives`), as pure functions on sequences:
  - `MPI_Scatterv` is slicing by counts;
  - `MPI_Gatherv` is concatenation in rank order;
  - `MPI_Reduce` with `MPI_SUM` is element-wise addition.
- **DNA primitives** (`Hamming`, `Util`): `DNADistance`, `max` and `tooSimilar`. Hamming counting is written once, generically over the element type. The C programs (`char`), the Java driver (`String` fields) and the sequential program (`char`) all reuse it.
- **One round of the DNA loop** (`Nearest`, `Tally`, `Vote`, `DnaRound`):
  - nearest-centroid labelling;
  - the flat `cluster * dimension * 4` frequency table;
  - the majority vote, with ties going to A, then C, then G, then T;
  - the drift `sumDistance` and the termination flag (`DNA_DIFF_THRESHOLD` = 1);
  - a fuel-bounded driver for the `do { } while (1)` loop.

  The round is stated twice and proved equal: once as the workers and the coordinator compute it, once as a single node would. It is also proved independent of how the records are split among workers.
- **The Java test driver's loop body** (`JavaDriver`): `simDNA`, `tooSimilar`, tagging by `indexOf(max)`, the four count tables, the `>=` vote chain and the `converged` test. Its tags are proved to be the C labels. Its vote is proved to be the C vote, and its convergence implies the C flag.
- **The sequential program's seeding** (`Seeding`): `sim`, `isVaildCentroid` and `pickCentroids`. Java exceptions become `Failure` values. The `pickCentroids` loop is stated for any acceptance test, and `PickCentroids` runs it with `isVaildCentroid`.

Centroid and record buffers, which the C code lays out flat with stride `dimension`, are sequences of rows here. The frequency table stays flat, because its index arithmetic is part of what is proved.

Modelling decisions where the code does not say what it means:

- The `handleLines` fill loop (`DNAKMeansMPI.c:121`, `kMeansMPI.c:158`, `TwoDKMeansMPI.c:119`) increments `processNumber` instead of `processIndex`. `Shares` models the intended `processIndex++`; the loop as written is `FillLoopAsWritten` (see Findings).
- `dnaC` and `dnaBuf` (`DNAKMeansMPI.c:177`, `kMeansMPI.c:298`) are undeclared. They are read as `DNACentroids` and `DNAProcessContents`.
- `lb` (`kMeansMPI.c:309-318`) is undeclared. It is read as `category`.
- `#define DNA_DIFF_THRESHOLD = 1` (`DNAKMeansMPI.c:9`) is read as threshold 1.
- The `switch` with non-constant labels (`kMeansMPI.c:345-357`) is read as the `if`/`else` chain of `DNAKMeansMPI.c:224-232`.
- `(int)(0.3 * dimension)` is modelled in integers as `3 * dimension / 10`.

Behaviours the model keeps exactly as the code has them:

- A cluster that no record reaches gets an all-zero table, and the C vote (`DNAKMeansMPI.c:216-233`) then makes it all `A` (`EmptyClusterBecomesA`).
- The comment at `DNAKMeansMPI.c:80-83` plans whole lines per worker: 501 lines on 10 workers need 51 lines each. The code below it (lines 84-88) adds one element, not one line, on a remainder. The model keeps the code's formula (`Shares`), models the comment's plan as `CeilRecordCounts`, and uses `RecordCounts` as the corrected plan (see Findings).
- The Java driver converges only when nothing changed. The C programs converge when at most one base changed.

## Model

| member | source | states |
|---|---|---|
| Util.DnaDistance | src/mpi/util.c:94-103 | `DNADistance` (start at `dimension`, decrement on equal positions) is the number of positions below `dimension` where the strands differ, and lies in `[0, dimension]` |
| Hamming.DifferencesCountsMismatches | src/mpi/util.c:97-101 | the distance is the size of the set of differing positions |
| Hamming.AgreementsPlusDifferences | src/mpi/util.c:96-101 | equal and differing positions together make up all `dimension` positions, so distance = length − agreements |
| Hamming.DifferencesZeroIff | src/mpi/util.c:97-100 | the distance is 0 exactly when the strands agree on every position below `dimension` |
| Hamming.DifferencesSelf | src/mpi/util.c:96-102 | a strand is at distance 0 from itself and agrees with itself everywhere |
| Hamming.DifferencesSymmetric | src/mpi/util.c:98 | the distance does not depend on the order of the two strands |
| Hamming.AgreementsSymmetric | src/sequential/ClusterDNA.java:173 | the count of equal positions does not depend on the order of the two strands |
| Hamming.TotalDifferencesZeroIff | src/mpi/DNAKMeansMPI.c:236-240 | the summed drift is 0 exactly when every new centroid equals its old one at every position |
| Util.Max | src/mpi/util.c:136-145 | `max` is at least both arguments and equal to one of them |
| Util.MinDist | src/mpi/util.c:122 | `minDist` is the integer part of three tenths of `dimension` |
| Util.TooSimilarFrom | src/mpi/util.c:124-127 | the loop from index `i` returns 1 exactly when some centroid in `[i, num)` is closer than `minDist` |
| Util.TooSimilar | src/mpi/util.c:121-130 | `tooSimilar` is 1 iff some centroid of index below `num` is closer than `minDist`, otherwise 0; 0 when `num` is 0; centroids at `num` or later are never consulted |
| Partition.CDiv | src/mpi/DNAKMeansMPI.c:264 | C division truncates toward zero: the remainder has the dividend's sign and is smaller than the divisor |
| Partition.HandleNumbers | src/mpi/DNAKMeansMPI.c:84-88 | `handleNumbers` is `lineNums / p` whole records plus a single stray element on a remainder: at width ≥ 2 its quotient by the width is `lineNums / p` and its remainder is 1 iff `p` does not divide `lineNums` (0 iff it does); on an even split `p` shares of it cover all `lineNums * dimension` elements |
| Partition.Shares | src/mpi/DNAKMeansMPI.c:121-125 | `p` shares, the first `p-1` equal to `handleNumbers`, summing to exactly `lineNums * dimension` (same code at kMeansMPI.c:157-162 and TwoDKMeansMPI.c:119-123) |
| Partition.Starts | src/mpi/DNAKMeansMPI.c:129-135 | offsets start at 0 and each is the previous plus the previous share; the last offset plus the last share is the total |
| Partition.StartsArePrefixSums | src/mpi/kMeansMPI.c:166-172 | offset `w` is the sum of the shares before worker `w`, so the slices are contiguous and disjoint |
| Partition.GatherCounts | src/mpi/kMeansMPI.c:388-393 | each gather count is the worker's share divided by `dimension`: for a non-negative share, `count * dimension <= share < (count + 1) * dimension` |
| Partition.LocalRows | src/mpi/kMeansMPI.c:189 | a worker labels its share divided by `dimension` with C truncation: for a non-negative share `rows * dimension <= share < rows * dimension + dimension`, for a negative one `rows <= 0` and `rows * dimension - dimension < share <= rows * dimension`; it is the count the gather at kMeansMPI.c:388-393 expects from that rank |
| Partition.RowsTotal | src/mpi/kMeansMPI.c:386-393 | the workers' row counts never add up to more than `lineNums`, and add up to exactly `lineNums` iff `p` divides `lineNums` or records are one element wide |
| Partition.RemainderRowsFallShort | src/mpi/DNAKMeansMPI.c:84-88 | with a remainder and records of two or more elements, the workers label fewer rows than there are lines |
| Partition.EvenSplit | src/mpi/DNAKMeansMPI.c:84-88 | when `p` divides `lineNums`: every share equals `handleNumbers` = `lineNums/p` records' worth, offsets fall on record boundaries, gather counts are `lineNums/p` each and sum to `lineNums` |
| Partition.TwoDEvenSplit | src/mpi/TwoDKMeansMPI.c:227-232 | at width 2 the shares sum to `2 * lineNums`, and on an even split each worker labels `lineNums/p` points and the gather counts sum to `lineNums` |
| Partition.RemainderMakesLastShareNegative | src/mpi/DNAKMeansMPI.c:84-88 | 1 line, 10 workers, width 2: `handleNumbers` is 1 and the last share is −7 |
| Partition.RemainderBreaksRecordAlignment | src/mpi/DNAKMeansMPI.c:262-267 | 3 lines of width 2 on 2 workers: shares 3 and 3, worker 1 starts mid-record, and the gather counts only 2 labels |
| Partition.RemainderOverflowsLastBuffer | src/mpi/DNAKMeansMPI.c:138 | 5 lines of width 2 on 3 workers: the last worker is sent 4 elements while each worker receives at most `handleNumbers` = 3 |
| Partition.RecordCounts | src/mpi/DNAKMeansMPI.c:84-88 | the corrected plan in records: all counts at least `lineNums/p`, the first `p-1` exactly that, summing to `lineNums` |
| Partition.CeilRecordCounts | src/mpi/DNAKMeansMPI.c:80-83 | the plan of the comment: `p` counts summing to `lineNums`, each of the first `p-1` being `lineNums/p` rounded up (`(c-1)*p < lineNums <= c*p`) |
| Partition.CeilPlanAsCommented | src/mpi/DNAKMeansMPI.c:80-83 | 501 lines on 10 workers: nine workers get 51 lines and the last 42; 500 lines: 50 each |
| Partition.CeilPlanCanGoNegative | src/mpi/DNAKMeansMPI.c:80-83 | 1 line on 10 workers under the comment's plan leaves the last worker −8 lines |
| Partition.CeilPlanMatchesWhenEven | src/mpi/DNAKMeansMPI.c:80-88 | on an even split the comment's plan is the corrected plan `RecordCounts` |
| Partition.AlignedShares | src/mpi/DNAKMeansMPI.c:121-125 | the corrected element shares are non-negative and sum to `lineNums * dimension` |
| Partition.AlignedGatherCounts | src/mpi/DNAKMeansMPI.c:262-267 | dividing the corrected shares by `dimension` gives back exactly the record counts |
| Partition.AlignedStartsOnRecordBoundaries | src/mpi/DNAKMeansMPI.c:129-135 | each corrected offset is the record offset times `dimension`, so every worker starts on a record boundary |
| Partition.AlignedMatchesSharesWhenEven | src/mpi/DNAKMeansMPI.c:84-88 | on an even split the corrected plan is the program's plan |
| Partition.FillLoopAsWritten | src/mpi/DNAKMeansMPI.c:121-123 | after `n` iterations of the loop as written, `processIndex` is unchanged and `processNumber` has grown by `n` |
| Partition.FillLoopNeverExits | src/mpi/DNAKMeansMPI.c:121 | with two or more workers the guard `processIndex < processNumber - 1` holds after any number of iterations |
| Collectives.Gather | src/mpi/DNAKMeansMPI.c:268 | the gathered buffer is as long as all parts together |
| Collectives.Scatter | src/mpi/DNAKMeansMPI.c:138 | worker `w` receives exactly `counts[w]` elements |
| Collectives.ScatterSlices | src/mpi/kMeansMPI.c:166-179 | worker `w` receives the buffer slice from its offset for its count |
| Collectives.GatherScatter | src/mpi/DNAKMeansMPI.c:262-268 | gathering in rank order what was scattered by counts covering the buffer rebuilds the buffer |
| Collectives.ScatterGather | src/mpi/kMeansMPI.c:176-179 | scattering a concatenation by its part lengths gives back the parts |
| Collectives.ReduceSum | src/mpi/DNAKMeansMPI.c:209 | `MPI_Reduce` with `MPI_SUM`: a buffer of the common length whose every position is the sum of all workers' values there |
| Collectives.ReduceAppend | src/mpi/kMeansMPI.c:330 | reducing two groups of workers is adding their two reduced tables |
| Collectives.ReduceIgnoresOrder | src/mpi/DNAKMeansMPI.c:209 | the reduced table is the same for any ordering of the workers' tables |
| Nearest.NearestUnique | src/mpi/DNAKMeansMPI.c:178-181 | at most one index is nearest with the lowest-index tie rule |
| Nearest.ScanFrom | src/mpi/DNAKMeansMPI.c:176-181 | the inner scan keeps the first index of strictly smaller distance, and returns −1 only when no centroid beats the starting bound |
| Nearest.Label | src/mpi/DNAKMeansMPI.c:173-182 | with at least one centroid the label is in `[0, K)`, its distance is at most that of every centroid, and every earlier centroid is strictly farther; with none it is −1 |
| Nearest.Labels | src/mpi/kMeansMPI.c:294-303 | every record's label is its nearest centroid under the lowest-index rule |
| Vote.MajorityChoiceUnique | src/mpi/DNAKMeansMPI.c:224-232 | exactly one base satisfies the majority-with-tie-order rule |
| Vote.CVote | src/mpi/DNAKMeansMPI.c:220-232 | the chosen base has a maximal count, and every base before it in A, C, G, T has a strictly smaller count |
| Vote.JavaVote | src/test/ClusterDNA.java:144-152 | the `>=` chain always appends exactly one base name, and it satisfies the same majority rule |
| Vote.VotesAgree | src/test/ClusterDNA.java:143-152 | the Java chain and the C `max` chain choose the same base for every count vector |
| Tally.SymbolIndex | src/mpi/DNAKMeansMPI.c:186-201 | A, C, G, T map to 0–3 in `DNA_Components` order; any other character maps to nothing |
| Tally.CellInRange | src/mpi/DNAKMeansMPI.c:188-197 | `4*dimension*category + 4*j + s` stays below `cluster*dimension*4` |
| Tally.CellInjective | src/mpi/DNAKMeansMPI.c:218-221 | distinct (cluster, position, base) triples use distinct counters |
| Tally.HitsAtCell | src/mpi/kMeansMPI.c:306-323 | a record adds exactly one to the counter of its own base at each position of its own cluster, and nothing anywhere else |
| Tally.AddPositions | src/mpi/DNAKMeansMPI.c:185-202 | after a record's position loop, each counter has grown by the number of that record's positions that hit it |
| Tally.LocalTable | src/mpi/DNAKMeansMPI.c:159-202 | a worker's table starts at zero and each counter is the sum over its records of their hits there |
| Tally.TallyCounts | src/mpi/DNAKMeansMPI.c:173-202 | each counter is the number of records labelled with that cluster that carry that base at that position |
| Tally.LocalTableAppend | src/mpi/DNAKMeansMPI.c:209 | the table of two record lists in sequence is the sum of their tables |
| DnaRound.VoteAt | src/mpi/kMeansMPI.c:340-358 | the vote at one position is a majority base of the four reduced counters there |
| DnaRound.NewCentroids | src/mpi/DNAKMeansMPI.c:216-233 | `K` new strands of `dimension` bases, each a base of A/C/G/T satisfying the majority rule on the reduced table |
| DnaRound.EmptyClusterBecomesA | src/mpi/DNAKMeansMPI.c:220-226 | a cluster with an all-zero table becomes all `A` |
| DnaRound.SumDistance | src/mpi/DNAKMeansMPI.c:236-240 | the `sumDistance` loop computes the summed Hamming drift between new and old centroids |
| DnaRound.DriftCountsPositions | src/mpi/kMeansMPI.c:362-366 | the drift is the number of (cluster, position) pairs whose base changed |
| DnaRound.FlagMeansOneChangeAtMost | src/mpi/DNAKMeansMPI.c:241-244 | the flag is set exactly when at most one base of one centroid changed |
| DnaRound.SequentialRound | src/mpi/kMeansMPI.c:294-372 | a round's labels are nearest-centroid labels, its new centroids replace all `K` old ones with `dimension` bases each, and its flag means at most one base changed |
| DnaRound.RoundVotesMajority | src/mpi/kMeansMPI.c:337-360 | each new base is a majority among the records labelled with that cluster at that position, ties to A, C, G, T |
| DnaRound.FixedPointConverges | src/mpi/kMeansMPI.c:368-370 | a round that reproduces its centroids raises the flag |
| DnaRound.ReducedTableIsGlobalTable | src/mpi/DNAKMeansMPI.c:209 | the reduced worker tables equal the table of all records counted in rank order |
| DnaRound.GatheredLabelsAreGlobalLabels | src/mpi/DNAKMeansMPI.c:262-268 | the gathered worker labels equal the labels of all records in input order |
| DnaRound.DistributedRound | src/mpi/DNAKMeansMPI.c:147-259 | the MPI round (local labels and tables on every worker, `MPI_Reduce` with `MPI_SUM`, the vote and the drift on the coordinator, labels collected by `MPI_Gatherv` in rank order) gives the same labels, centroids and flag as one node running the round on the concatenated records |
| DnaRound.PartitionIndependent | src/mpi/DNAKMeansMPI.c:129-138 | any two splits of the same records produce the same round |
| DnaRound.ScatteredRoundMatchesSequential | src/mpi/kMeansMPI.c:176-179 | scattering the records by any counts that cover them, then running the round, gives the single-node round |
| DnaRound.PlannedRoundMatchesSequential | src/mpi/kMeansMPI.c:111-115 | with the corrected record counts for `p` workers, the distributed round is the single-node round |
| DnaRound.Iterate | src/mpi/DNAKMeansMPI.c:152-259 | the loop stops early only on a raised flag, a loop of one round keeps `cs` as the previous centroids, and its final labels are nearest to the last centroids it read; the final centroids are that round's vote, and `converged` means at most one base changed |
| DnaRound.IterateStops | src/mpi/DNAKMeansMPI.c:241-254 | the loop runs a single round exactly when the first round raises the flag or the fuel allows only one, and then it returns that round's labels and centroids with `cs` as the previous centroids |
| DnaRound.IterateContinues | src/mpi/DNAKMeansMPI.c:152-259 | when the first round leaves the flag down and fuel remains, the loop is the loop from that round's centroids, counting one round more |
| JavaDriver.SimLoop | src/test/ClusterDNA.java:189-194 | the loop from position `ii` subtracts the differences at and after `ii` |
| JavaDriver.SimDna | src/test/ClusterDNA.java:187-196 | `simDNA` is the number of equal positions, equivalently length minus Hamming distance, and lies in `[0, dlen]` |
| JavaDriver.SimDnaSelf | src/test/ClusterDNA.java:188-195 | a strand's similarity to itself is its length |
| JavaDriver.SimDnaSymmetric | src/test/ClusterDNA.java:191 | similarity of equal-length strands is symmetric |
| JavaDriver.TooSimilarFrom | src/test/ClusterDNA.java:209-213 | the loop from `iter` is true exactly when some later strand is within `length - maxSim` distance |
| JavaDriver.TooSimilar | src/test/ClusterDNA.java:208-215 | true iff some listed strand has similarity above `maxSim`; false for an empty list |
| JavaDriver.MaxOf | src/test/ClusterDNA.java:124 | `Collections.max` is an element of the list and at least every element |
| JavaDriver.IndexOf | src/test/ClusterDNA.java:124 | `indexOf` is the first position holding the value, or −1 when absent |
| JavaDriver.Tag | src/test/ClusterDNA.java:119-124 | the tag is in `[0, K)`, its similarity is maximal, and every earlier centroid is strictly less similar |
| JavaDriver.TagIsNearest | src/test/ClusterDNA.java:119-125 | the Java tag equals the C label (nearest centroid, lowest index on ties) |
| JavaDriver.BaseIndex | src/test/ClusterDNA.java:127-134 | "A", "C", "G", "T" map to their table; any other field maps to none |
| JavaDriver.AddStrand | src/test/ClusterDNA.java:126-136 | a strand adds 1 to the counter of its base at each position of its tag's table and nothing elsewhere |
| JavaDriver.CountAll | src/test/ClusterDNA.java:110-136 | each counter is the number of strands with that tag that carry that base at that position |
| JavaDriver.Tags | src/test/ClusterDNA.java:116-125 | the `tags` list is the C label list over the first `K` centroids |
| JavaDriver.UpdatedCentroid | src/test/ClusterDNA.java:142-152 | `lenDNA` one-letter base names, each satisfying the majority rule on the counts |
| JavaDriver.Update | src/test/ClusterDNA.java:140-158 | the first `K` centroids are replaced by their votes and the rest kept; `converged` holds iff no replaced centroid changed at any position, iff their drift is 0 |
| JavaDriver.Round | src/test/ClusterDNA.java:102-158 | one pass: tags are the C labels, new bases are majorities among tagged strands, `converged` means nothing changed, and it implies the C flag |
| Seeding.SimFrom | src/sequential/ClusterDNA.java:172-175 | the loop from position `i` counts the equal positions in `[i, 20)` |
| Seeding.Sim | src/sequential/ClusterDNA.java:170-177 | `sim` succeeds exactly when both strands have at least `DNA_LENGTH` = 20 characters, and then counts equal positions among the first 20; otherwise it is an index-out-of-bounds failure |
| Seeding.ValidFrom | src/sequential/ClusterDNA.java:98-101 | the for-each from centroid `i` is true iff every remaining centroid is within `MAX_SIM`; otherwise the first centroid that is not decides: false when its `sim` exceeds `MAX_SIM`, an index-out-of-bounds failure when `sim` cannot index it |
| Seeding.IsValidCentroid | src/sequential/ClusterDNA.java:97-103 | valid iff `sim` to every chosen centroid succeeds and is at most `MAX_SIM` = 18, vacuously with no centroids; otherwise the first centroid that is too similar or too short decides between false and an index-out-of-bounds failure |
| Seeding.IsValidCentroidDecided | src/sequential/ClusterDNA.java:97-103 | for every strand and centroid list, the first centroid the strand is not far enough from fixes the result: false when `sim` succeeds on it, an index-out-of-bounds failure when it does not |
| Seeding.RejectBeforeShortCentroid | src/sequential/ClusterDNA.java:98-100 | a strand identical to the first centroid is rejected with false even when the next centroid is too short to compare |
| Seeding.PickFrom | src/sequential/ClusterDNA.java:87-93 | the loop, for any acceptance test, only appends, stops at `centroidNum` picks, and cannot pick more strands than remain past the cursor; which strands it appends is stated by `ScanEndFirstFit` and `PickFromSucceeds` |
| Seeding.PickCentroids | src/sequential/ClusterDNA.java:84-94 | an empty input fails; on success there are `max(centroidNum, 1)` centroids, at most one per strand, the first being strand 0 |
| Seeding.FirstFitTake | src/sequential/ClusterDNA.java:90-91 | appending a strand that the acceptance test accepts keeps the scan first fit |
| Seeding.FirstFitSkip | src/sequential/ClusterDNA.java:90-92 | passing over a strand that the acceptance test rejects keeps the scan first fit |
| Seeding.ScanEndFirstFit | src/sequential/ClusterDNA.java:85-92 | wherever the loop stops, the picks so far are strand 0 plus every later strand, in order, that passed against the picks before it, and every strand passed over failed against the picks made before reaching it |
| Seeding.PickFromSucceeds | src/sequential/ClusterDNA.java:85-93 | a successful loop returns exactly the scan's picks, and it stops right after the `centroidNum`-th pick |
| Seeding.PickFromFails | src/sequential/ClusterDNA.java:85-93 | the loop fails only short of `centroidNum` picks, and either it scanned every strand ("not enough") or the test of the strand where the scan stopped failed with the same error |
| Seeding.FirstFitFromStrandZero | src/sequential/ClusterDNA.java:83-92 | for any acceptance test, the loop started from strand 0 alone is first fit; success returns the scan's picks, and failure is running out of strands or the test failing where the scan stopped |
| Seeding.PickCentroidsFirstFit | src/sequential/ClusterDNA.java:82-92 | `pickCentroids` is first fit: the centroids are strand 0 followed by, in input order, each strand accepted against the centroids before it, every skipped strand rejected against the centroids of its time; "not enough" means every strand was scanned with fewer than `centroidNum` picks, and an index error means a check at the stopping strand failed |
| Seeding.PickCentroidsSpread | src/sequential/ClusterDNA.java:90-91 | on success each centroid passes `isVaildCentroid` against all centroids picked before it, so every two centroids agree on at most `MAX_SIM` of their first `DNA_LENGTH` positions |
| Seeding.SpreadPairwise | src/sequential/ClusterDNA.java:97-103 | a list in which each entry passed `isVaildCentroid` against its predecessors has `sim` at most `MAX_SIM` between every two entries |
| Seeding.PickCentroidsInOrder | src/sequential/ClusterDNA.java:85-92 | on success the centroids are strands at strictly increasing input positions starting at 0 |
| Seeding.LongStrandsOnlyRunOut | src/sequential/ClusterDNA.java:88-89 | when every strand has at least 20 characters, the only failure is running out of strands |

## Left out

- File reading, argument parsing, printing and memory management in both languages are not modelled: they are I/O plumbing. This covers `readDNAContents`, `loadDNA`, the `main` argument checks and `malloc`/`free`.
- Random seeding (`generateDNACentroids`, `generate2DCentroids`, and the `Math.random()` strategy of the Java driver) is not modelled, because it depends on a random source. The round takes its centroids as a parameter.
- The MPI protocol itself is left out because it is concurrency: blocking, the coordinator rank, broadcast, and deadlock freedom. Only the data effect of Scatterv, Gatherv, Reduce and Bcast is modelled.
- The 2D/Euclidean path is left out because it is floating-point numerics. This covers `TwoDDistance` and `tooClose`, and the 2D assign/mean/drift steps in `TwoDKMeansMPI.c` and `kMeansMPI.c`. `Cluster2D` and `Coordinate` are not part of this model. From `TwoDKMeansMPI.c` only the partition and gather arithmetic at width 2 is modelled.
- `findCluster` in `sequential/ClusterDNA.java` is not modelled: it is unfinished (an empty centroid loop and an unpopulated `clusters`).
- `dnaGenerator.py` and `util.h` are not part of this model. The first is random data generation; the second holds declarations only.
- DnaRound.Iterate: the unbounded `do { } while (1)` loop is cut off after `fuel` rounds. A clustering that has not converged within the fuel is reported with `converged` false rather than looping forever.
- Integer widths are not modelled. Counts, offsets and distances are unbounded integers, so `int` overflow of `lineNums * dimension` in C is not modelled, and neither are negative `atoi` values.
- Util.MinDist: `(int)(0.3 * dimension)` is computed in floating point in C. The model uses the exact integer part of `3 * dimension / 10`.
- Tally.LocalTable, DnaRound.SequentialRound, DnaRound.DistributedRound: the model requires at least one centroid and `dimension < MAX_DIFF`. Without them the C label stays −1 and the table index `4*dimension*(-1) + …` is out of bounds, which is undefined behaviour.
- JavaDriver.SimDna: requires the second strand to be at least as long as the first. `JavaDriver.Round` requires every strand to have exactly `lenDNA` fields and every centroid at least that many. Java would throw `IndexOutOfBoundsException` on ragged input, and that path is not modelled in the driver.
- JavaDriver.Round: `K >= 1` is required, as `main` checks at start-up. The seeding may have added more than `K` centroids; the round reads only the first `K`, and `Update` keeps the rest unchanged.
- Seeding: both Java exceptions (an empty strand list, and running out of strands) are `Failure` values, as is an array index out of bounds in `sim`. `main` reports all of them with the same message and exits.

## Findings

| source | as written | input that shows it | evidently intended | confidence | as-written member | corrected member |
|---|---|---|---|---|---|---|
| src/mpi/DNAKMeansMPI.c:121 | the fill loop increments `processNumber`, so `processIndex` stays 0 and the guard never fails (same in kMeansMPI.c:158 and TwoDKMeansMPI.c:119) | any `processNumber >= 2` | `processIndex++`, filling workers `0 .. p-2` with `handleNumbers` | high, not executed | Partition.FillLoopAsWritten, Partition.FillLoopNeverExits | Partition.Shares |
| src/mpi/DNAKMeansMPI.c:84-88 | on a remainder `handleNumbers` grows by one element, not one record, so the last share can be negative or larger than the receive buffer, and offsets and gather counts lose record alignment (same in kMeansMPI.c:111-115 and TwoDKMeansMPI.c:82-86) | 1 line, 10 workers, width 2 gives last share −7; 3 lines, 2 workers, width 2 gathers 2 labels of 3; 5 lines, 3 workers, width 2 sends 4 elements into a 3-element buffer | whole lines per worker, as the comment at DNAKMeansMPI.c:80-83 says (501 lines on 10 workers: 51 each, the last 42). That ceiling plan still leaves the last worker a negative count on small inputs (1 line on 10 workers: −8), so the corrected plan gives each worker `lineNums / p` lines and the last one the remainder | high, not executed | Partition.RemainderMakesLastShareNegative, Partition.RemainderBreaksRecordAlignment, Partition.RemainderOverflowsLastBuffer, Partition.RemainderRowsFallShort, Partition.CeilPlanCanGoNegative | Partition.RecordCounts, Partition.AlignedShares, Partition.AlignedGatherCounts, Partition.CeilRecordCounts, Partition.CeilPlanMatchesWhenEven, DnaRound.PlannedRoundMatchesSequential |

=== FILE: collectives.dfy ===
/**
 * The data effect of the MPI collectives the programs use: `MPI_Scatterv`
 * slices the coordinator's buffer, `MPI_Gatherv` concatenates the workers'
 * buffers in rank order, and `MPI_Reduce` with `MPI_SUM` adds the workers'
 * buffers element by element.
 */
module Collectives {
  import opened Partition

  /** Length of every worker's buffer. */
  function Lengths<T>(parts: seq<seq<T>>): (r: seq<int>)
    ensures |r| == |parts|
    ensures forall w :: 0 <= w < |parts| ==> r[w] == |parts[w]|
  {
    seq(|parts|, w requires 0 <= w < |parts| => |parts[w]|)
  }

  lemma SumNonNegative(s: seq<int>)
    requires forall i :: 0 <= i < |s| ==> s[i] >= 0
    ensures Sum(s) >= 0
  {
  }

  /** `MPI_Gatherv` onto the coordinator: worker buffers concatenated in rank order. */
  function Gather<T>(parts: seq<seq<T>>): (r: seq<T>)
    ensures |r| == Sum(Lengths(parts))
  {
    if |parts| == 0 then []
    else
      assert Lengths(parts)[1..] == Lengths(parts[1..]);
      parts[0] + Gather(parts[1..])
  }

  /**
   * `MPI_Scatterv` with contiguous displacements: worker `w` receives the next
   * `counts[w]` elements of the buffer.
   */
  function Scatter<T>(buf: seq<T>, counts: seq<int>): (r: seq<seq<T>>)
    requires forall w :: 0 <= w < |counts| ==> counts[w] >= 0
    requires Sum(counts) <= |buf|
    ensures |r| == |counts|
    ensures forall w :: 0 <= w < |counts| ==> |r[w]| == counts[w]
  {
    if |counts| == 0 then []
    else
      SumNonNegative(counts[1..]);
      [buf[..counts[0]]] + Scatter(buf[counts[0]..], counts[1..])
  }

  lemma SliceOfSuffix<T>(buf: seq<T>, start: int, from: int, len: int)
    requires 0 <= start <= |buf|
    requires 0 <= from && 0 <= len && from + len <= |buf| - start
    ensures buf[start..][from .. from + len] == buf[start + from .. start + from + len]
  {
  }

  /** Worker `w` receives exactly the slice that starts at its displacement `Starts(counts)[w]`. */
  lemma ScatterSlices<T>(buf: seq<T>, counts: seq<int>, w: nat)
    requires forall k :: 0 <= k < |counts| ==> counts[k] >= 0
    requires Sum(counts) <= |buf|
    requires w < |counts|
    ensures 0 <= Starts(counts)[w] <= Starts(counts)[w] + counts[w] <= |buf|
    ensures Scatter(buf, counts)[w] == buf[Starts(counts)[w] .. Starts(counts)[w] + counts[w]]
  {
    StartsArePrefixSums(counts, w);
    ScatterSlicesSum(buf, counts, w);
  }

  /** Worker `w` receives the slice after the elements of workers `0 .. w-1`. */
  lemma {:induction false} ScatterSlicesSum<T>(buf: seq<T>, counts: seq<int>, w: nat)
    requires forall k :: 0 <= k < |counts| ==> counts[k] >= 0
    requires Sum(counts) <= |buf|
    requires w < |counts|
    ensures 0 <= Sum(counts[..w]) <= Sum(counts[..w]) + counts[w] <= |buf|
    ensures Scatter(buf, counts)[w] == buf[Sum(counts[..w]) .. Sum(counts[..w]) + counts[w]]
  {
    var c0 := counts[0];
    SumNonNegative(counts[1..]);
    if w == 0 {
      assert counts[..0] == [];
    } else {
      var rest := counts[1..];
      ScatterSlicesSum(buf[c0..], rest, w - 1);
      PrefixSumShift(counts, w);
      ScatterAt(buf, counts, w);
      SliceOfSuffix(buf, c0, Sum(rest[..w - 1]), counts[w]);
    }
  }

  /** The counts before worker `w > 0` are the first count plus the counts of the rest before `w - 1`. */
  lemma PrefixSumShift(counts: seq<int>, w: nat)
    requires 0 < w < |counts|
    ensures Sum(counts[..w]) == counts[0] + Sum(counts[1..][..w - 1])
    ensures counts[w] == counts[1..][w - 1]
  {
    assert counts[..w][1..] == counts[1..][..w - 1];
  }

  /** Worker `w > 0` of a scatter is worker `w - 1` of the scatter of the rest. */
  lemma ScatterAt<T>(buf: seq<T>, counts: seq<int>, w: nat)
    requires forall k :: 0 <= k < |counts| ==> counts[k] >= 0
    requires Sum(counts) <= |buf|
    requires 0 < w < |counts|
    ensures 0 <= Sum(counts[1..]) <= |buf| - counts[0]
    ensures Scatter(buf, counts)[w] == Scatter(buf[counts[0]..], counts[1..])[w - 1]
  {
    SumNonNegative(counts[1..]);
  }

  /** Gathering what was scattered restores the buffer: labels come back in record order. */
  lemma {:induction false} GatherScatter<T>(buf: seq<T>, counts: seq<int>)
    requires forall w :: 0 <= w < |counts| ==> counts[w] >= 0
    requires Sum(counts) == |buf|
    ensures Gather(Scatter(buf, counts)) == buf
  {
    if |counts| > 0 {
      SumNonNegative(counts[1..]);
      GatherScatter(buf[counts[0]..], counts[1..]);
      assert Scatter(buf, counts)[1..] == Scatter(buf[counts[0]..], counts[1..]);
    }
  }

  /** Scattering a concatenation by its own lengths returns the pieces. */
  lemma {:induction false} ScatterGather<T>(parts: seq<seq<T>>)
    ensures Scatter(Gather(parts), Lengths(parts)) == parts
  {
    if |parts| > 0 {
      assert Lengths(parts)[1..] == Lengths(parts[1..]);
      assert (parts[0] + Gather(parts[1..]))[|parts[0]|..] == Gather(parts[1..]);
      ScatterGather(parts[1..]);
    }
  }

  /** An all-zero buffer, what `memset` leaves before counting. */
  function Zeros(n: nat): (r: seq<int>)
    ensures |r| == n
    ensures forall i :: 0 <= i < n ==> r[i] == 0
  {
    seq(n, _ => 0)
  }

  /** `MPI_SUM` of two contributions. */
  function AddTables(a: seq<int>, b: seq<int>): (r: seq<int>)
    requires |a| == |b|
    ensures |r| == |a|
    ensures forall i :: 0 <= i < |a| ==> r[i] == a[i] + b[i]
  {
    seq(|a|, i requires 0 <= i < |a| => a[i] + b[i])
  }

  /** The values every worker contributes at one position. */
  function Column(ts: seq<seq<int>>, i: nat): (r: seq<int>)
    requires forall w :: 0 <= w < |ts| ==> i < |ts[w]|
    ensures |r| == |ts|
    ensures forall w :: 0 <= w < |ts| ==> r[w] == ts[w][i]
  {
    seq(|ts|, w requires 0 <= w < |ts| => ts[w][i])
  }

  /**
   * `MPI_Reduce(..., MPI_SUM, ...)`: the coordinator's buffer holds, at every
   * position, the sum of all workers' contributions at that position.
   */
  function ReduceSum(ts: seq<seq<int>>, n: nat): (r: seq<int>)
    requires forall w :: 0 <= w < |ts| ==> |ts[w]| == n
    ensures |r| == n
    ensures forall i :: 0 <= i < n ==> r[i] == Sum(Column(ts, i))
  {
    if |ts| == 0 then Zeros(n)
    else
      ColumnsSplit(ts, n);
      AddTables(ts[0], ReduceSum(ts[1..], n))
  }

  /** Every column's sum is the first worker's value plus the sum of the rest. */
  lemma ColumnsSplit(ts: seq<seq<int>>, n: nat)
    requires forall w :: 0 <= w < |ts| ==> |ts[w]| == n
    requires |ts| > 0
    ensures forall i :: 0 <= i < n ==> Sum(Column(ts, i)) == ts[0][i] + Sum(Column(ts[1..], i))
  {
    forall i | 0 <= i < n
      ensures Sum(Column(ts, i)) == ts[0][i] + Sum(Column(ts[1..], i))
    {
      assert Column(ts, i)[1..] == Column(ts[1..], i);
    }
  }

  /** Reducing a concatenation of worker groups is the sum of the two partial reductions. */
  lemma {:induction false} ReduceAppend(ts: seq<seq<int>>, us: seq<seq<int>>, n: nat)
    requires forall w :: 0 <= w < |ts| ==> |ts[w]| == n
    requires forall w :: 0 <= w < |us| ==> |us[w]| == n
    ensures ReduceSum(ts + us, n) == AddTables(ReduceSum(ts, n), ReduceSum(us, n))
  {
    if |ts| == 0 {
      assert ts + us == us;
    } else {
      assert (ts + us)[1..] == ts[1..] + us;
      ReduceAppend(ts[1..], us, n);
    }
  }

  /** Taking one contribution out of the middle. */
  lemma ReduceExtract(us: seq<seq<int>>, k: nat, n: nat)
    requires forall w :: 0 <= w < |us| ==> |us[w]| == n
    requires k < |us|
    ensures ReduceSum(us, n) == AddTables(us[k], ReduceSum(us[..k] + us[k + 1..], n))
  {
    var a := us[..k];
    var c := us[k + 1..];
    var b := [us[k]] + c;
    assert us == a + b;
    assert b[1..] == c;
    ReduceAppend(a, b, n);
    ReduceAppend(a, c, n);
    AddTablesRotate(ReduceSum(a, n), us[k], ReduceSum(c, n));
  }

  lemma AddTablesRotate(a: seq<int>, x: seq<int>, c: seq<int>)
    requires |a| == |x| == |c|
    ensures AddTables(a, AddTables(x, c)) == AddTables(x, AddTables(a, c))
  {
  }

  /** Removing the first element on one side and a matching element on the other keeps the multisets equal. */
  lemma MultisetRemove<T>(ts: seq<T>, us: seq<T>, k: nat)
    requires multiset(ts) == multiset(us)
    requires 0 < |ts| && k < |us| && us[k] == ts[0]
    ensures multiset(us[..k] + us[k + 1..]) == multiset(ts[1..])
  {
    assert us == us[..k] + [us[k]] + us[k + 1..];
    assert multiset(us) == multiset(us[..k]) + multiset{us[k]} + multiset(us[k + 1..]);
    assert multiset(us[..k] + us[k + 1..]) == multiset(us[..k]) + multiset(us[k + 1..]);
    assert ts == [ts[0]] + ts[1..];
    assert multiset(ts) == multiset{ts[0]} + multiset(ts[1..]);
    assert multiset(ts[1..]) == multiset(ts) - multiset{ts[0]};
    assert multiset(us[..k] + us[k + 1..]) == multiset(us) - multiset{us[k]};
  }

  /**
   * The reduction does not depend on the order in which workers contribute:
   * any rearrangement of the same contributions gives the same sum.
   */
  lemma {:induction false} ReduceIgnoresOrder(ts: seq<seq<int>>, us: seq<seq<int>>, n: nat)
    requires forall w :: 0 <= w < |ts| ==> |ts[w]| == n
    requires multiset(ts) == multiset(us)
    ensures forall w :: 0 <= w < |us| ==> |us[w]| == n
    ensures ReduceSum(ts, n) == ReduceSum(us, n)
  {
    assert forall w :: 0 <= w < |us| ==> us[w] in multiset(ts);
    if |ts| == 0 {
      assert |us| == |multiset(us)| == 0;
    } else {
      var x := ts[0];
      assert x in multiset(us);
      var k :| 0 <= k < |us| && us[k] == x;
      var rest := us[..k] + us[k + 1..];
      MultisetRemove(ts, us, k);
      ReduceIgnoresOrder(ts[1..], rest, n);
      ReduceExtract(us, k, n);
    }
  }
}

=== FILE: dnaround.dfy ===
/**
 * One round of the DNA k-means loop and a fuel-bounded driver around it:
 * every worker labels its records and counts bases, the coordinator sums the
 * tables, votes new centroids, measures how far they moved and raises the
 * termination flag when the total drift is at most one base.
 */
module DnaRound {
  import opened Partition
  import opened Collectives
  import opened Hamming
  import opened Util
  import opened Nearest
  import opened Vote
  import opened Tally

  /** `DNA_DIFF_THRESHOLD`. */
  const DnaDiffThreshold := 1

  /** Every record in `xs` has at least `dimension` characters. */
  predicate RowsFit(xs: seq<seq<char>>, dimension: nat)
  {
    forall i :: 0 <= i < |xs| ==> dimension <= |xs[i]|
  }

  /** What the loop needs of its centroids: at least one, each `dimension` long, a distance below `MAX_DIFF`. */
  predicate CentroidsFit(cs: seq<seq<char>>, dimension: nat)
  {
    |cs| > 0 && dimension < MaxDiff && RowsFit(cs, dimension)
  }

  /** The master's vote at position `j` of cluster `i` of the reduced table. */
  function VoteAt(table: seq<int>, cluster: nat, dimension: nat, i: nat, j: nat): (ch: char)
    requires |table| == cluster * dimension * 4 && i < cluster && j < dimension
    ensures MajorityChoice(ch, table[Slot(cluster, dimension, i, j, 0)], table[Slot(cluster, dimension, i, j, 1)],
                               table[Slot(cluster, dimension, i, j, 2)], table[Slot(cluster, dimension, i, j, 3)])
  {
    CVote(table[Slot(cluster, dimension, i, j, 0)], table[Slot(cluster, dimension, i, j, 1)],
          table[Slot(cluster, dimension, i, j, 2)], table[Slot(cluster, dimension, i, j, 3)])
  }

  /** `distributedCentroids`: one voted strand of `dimension` bases per cluster. */
  function NewCentroids(table: seq<int>, cluster: nat, dimension: nat): (r: seq<seq<char>>)
    requires |table| == cluster * dimension * 4
    ensures |r| == cluster
    ensures forall i :: 0 <= i < cluster ==> |r[i]| == dimension
    ensures forall i, j :: 0 <= i < cluster && 0 <= j < dimension ==>
      r[i][j] in Components &&
      MajorityChoice(r[i][j], table[Slot(cluster, dimension, i, j, 0)], table[Slot(cluster, dimension, i, j, 1)],
                              table[Slot(cluster, dimension, i, j, 2)], table[Slot(cluster, dimension, i, j, 3)])
  {
    seq(cluster, i requires 0 <= i < cluster =>
      seq(dimension, j requires 0 <= j < dimension => VoteAt(table, cluster, dimension, i, j)))
  }

  /** A cluster nobody was assigned to has an all-zero table and becomes all 'A'. */
  lemma EmptyClusterBecomesA(table: seq<int>, cluster: nat, dimension: nat, i: nat)
    requires |table| == cluster * dimension * 4 && i < cluster
    requires forall j, s :: 0 <= j < dimension && 0 <= s < 4 ==> table[Slot(cluster, dimension, i, j, s)] == 0
    ensures forall j :: 0 <= j < dimension ==> NewCentroids(table, cluster, dimension)[i][j] == 'A'
  {
    forall j | 0 <= j < dimension
      ensures NewCentroids(table, cluster, dimension)[i][j] == 'A'
    {
      assert table[Slot(cluster, dimension, i, j, 0)] == 0 && table[Slot(cluster, dimension, i, j, 1)] == 0;
      assert table[Slot(cluster, dimension, i, j, 2)] == 0 && table[Slot(cluster, dimension, i, j, 3)] == 0;
    }
  }

  /** The master's `sumDistance` loop over the clusters. */
  method SumDistance(news: seq<seq<char>>, olds: seq<seq<char>>, dimension: nat) returns (sumDistance: int)
    requires |news| == |olds| && RowsFit(news, dimension) && RowsFit(olds, dimension)
    ensures sumDistance == TotalDifferences(news, olds, dimension)
  {
    sumDistance := 0;
    var i := 0;
    while i < |news|
      invariant 0 <= i <= |news|
      invariant sumDistance == TotalDifferences(news[..i], olds[..i], dimension)
    {
      sumDistance := sumDistance + DnaDistance(news[i], olds[i], dimension);
      assert news[..i + 1][..i] == news[..i];
      assert olds[..i + 1][..i] == olds[..i];
      i := i + 1;
    }
    assert news[..i] == news && olds[..i] == olds;
  }

  /** The (cluster, position) pairs at which two centroid sets differ. */
  ghost function DriftPositions(xs: seq<seq<char>>, ys: seq<seq<char>>, n: nat): (r: set<(int, int)>)
    requires |xs| == |ys| && RowsFit(xs, n) && RowsFit(ys, n)
    ensures forall p :: p in r <==> 0 <= p.0 < |xs| && 0 <= p.1 < n && xs[p.0][p.1] != ys[p.0][p.1]
  {
    set i, j | 0 <= i < |xs| && 0 <= j < n && xs[i][j] != ys[i][j] :: (i, j)
  }

  /** The positions below `n` at which centroid `k` changed, as (cluster, position) pairs. */
  ghost function RowDrift(k: int, a: seq<char>, b: seq<char>, n: nat): (r: set<(int, int)>)
    requires n <= |a| && n <= |b|
    ensures forall p :: p in r <==> p.0 == k && 0 <= p.1 < n && a[p.1] != b[p.1]
    ensures |r| == Differences(a, b, n)
  {
    if n == 0 then {}
    else
      var prev := RowDrift(k, a, b, n - 1);
      assert (k, n - 1) !in prev;
      prev + if a[n - 1] != b[n - 1] then {(k, n - 1)} else {}
  }

  /** Appending one centroid pair adds exactly that pair's changed positions to the drift positions. */
  lemma DriftPositionsSnoc(xs: seq<seq<char>>, ys: seq<seq<char>>, x: seq<char>, y: seq<char>, n: nat)
    requires |xs| == |ys| && RowsFit(xs, n) && RowsFit(ys, n) && n <= |x| && n <= |y|
    ensures RowsFit(xs + [x], n) && RowsFit(ys + [y], n)
    ensures |DriftPositions(xs + [x], ys + [y], n)| == |DriftPositions(xs, ys, n)| + Differences(x, y, n)
  {
    var xs2, ys2 := xs + [x], ys + [y];
    assert forall i :: 0 <= i < |xs| ==> xs2[i] == xs[i] && ys2[i] == ys[i];
    assert xs2[|xs|] == x && ys2[|xs|] == y;
    var all, prev, last := DriftPositions(xs2, ys2, n), DriftPositions(xs, ys, n), RowDrift(|xs|, x, y, n);
    assert forall p :: p in all <==> p in prev || p in last;
    assert all == prev + last;
    assert prev !! last by {
      forall p | p in prev
        ensures p !in last
      {
      }
    }
  }

  /** The drift counts the differing (cluster, position) pairs. */
  lemma {:induction false} DriftCountsPositions(xs: seq<seq<char>>, ys: seq<seq<char>>, n: nat)
    requires |xs| == |ys| && RowsFit(xs, n) && RowsFit(ys, n)
    ensures TotalDifferences(xs, ys, n) == |DriftPositions(xs, ys, n)|
  {
    if |xs| > 0 {
      var k := |xs| - 1;
      var xs', ys' := xs[..k], ys[..k];
      DriftCountsPositions(xs', ys', n);
      assert xs == xs' + [xs[k]] && ys == ys' + [ys[k]];
      DriftPositionsSnoc(xs', ys', xs[k], ys[k], n);
    }
  }

  /**
   * The termination flag: set exactly when at most one base of one centroid
   * changed in this round.
   */
  lemma FlagMeansOneChangeAtMost(news: seq<seq<char>>, olds: seq<seq<char>>, dimension: nat)
    requires |news| == |olds| && RowsFit(news, dimension) && RowsFit(olds, dimension)
    ensures TotalDifferences(news, olds, dimension) <= DnaDiffThreshold
        <==> |DriftPositions(news, olds, dimension)| <= 1
  {
    DriftCountsPositions(news, olds, dimension);
  }

  /** The coordinator's result of one round. */
  datatype Round = Round(labels: seq<int>, centroids: seq<seq<char>>, converged: bool)

  /** One round over all records on a single node: label, count, vote, compare. */
  function SequentialRound(cs: seq<seq<char>>, xs: seq<seq<char>>, dimension: nat): (r: Round)
    requires CentroidsFit(cs, dimension) && RowsFit(xs, dimension)
    ensures |r.labels| == |xs|
    ensures forall i :: 0 <= i < |xs| ==> IsNearest(cs, xs[i], dimension, r.labels[i])
    ensures |r.centroids| == |cs| && forall i :: 0 <= i < |cs| ==> |r.centroids[i]| == dimension
    ensures r.converged <==> |DriftPositions(r.centroids, cs, dimension)| <= 1
  {
    var news := NewCentroids(LocalTable(cs, xs, dimension), |cs|, dimension);
    FlagMeansOneChangeAtMost(news, cs, dimension);
    Round(Labels(cs, xs, dimension), news, TotalDifferences(news, cs, dimension) <= DnaDiffThreshold)
  }

  /**
   * Each new centroid base is a majority vote over the records labelled with
   * that cluster: its count at that position is maximal, earlier bases on ties.
   */
  lemma RoundVotesMajority(cs: seq<seq<char>>, xs: seq<seq<char>>, dimension: nat, i: nat, j: nat)
    requires CentroidsFit(cs, dimension) && RowsFit(xs, dimension)
    requires i < |cs| && j < dimension
    ensures MajorityChoice(SequentialRound(cs, xs, dimension).centroids[i][j],
      |Matching(cs, xs, dimension, i, j, 0)|, |Matching(cs, xs, dimension, i, j, 1)|,
      |Matching(cs, xs, dimension, i, j, 2)|, |Matching(cs, xs, dimension, i, j, 3)|)
  {
    TallyCounts(cs, xs, dimension, i, j, 0);
    TallyCounts(cs, xs, dimension, i, j, 1);
    TallyCounts(cs, xs, dimension, i, j, 2);
    TallyCounts(cs, xs, dimension, i, j, 3);
  }

  /** A round that reproduces its own centroids raises the flag. */
  lemma FixedPointConverges(cs: seq<seq<char>>, xs: seq<seq<char>>, dimension: nat)
    requires CentroidsFit(cs, dimension) && RowsFit(xs, dimension)
    requires forall i, j :: 0 <= i < |cs| && 0 <= j < dimension ==>
      SequentialRound(cs, xs, dimension).centroids[i][j] == cs[i][j]
    ensures SequentialRound(cs, xs, dimension).converged
  {
    var r := SequentialRound(cs, xs, dimension);
    TotalDifferencesZeroIff(r.centroids, cs, dimension);
  }

  /** Every worker's records fit. */
  predicate PartsFit(parts: seq<seq<seq<char>>>, dimension: nat)
  {
    forall w :: 0 <= w < |parts| ==> RowsFit(parts[w], dimension)
  }

  lemma {:induction false} GatherFits(parts: seq<seq<seq<char>>>, dimension: nat)
    requires PartsFit(parts, dimension)
    ensures RowsFit(Gather(parts), dimension)
  {
    if |parts| > 0 {
      GatherFits(parts[1..], dimension);
    }
  }

  /** Each worker's frequency table over its own records. */
  function WorkerTables(cs: seq<seq<char>>, parts: seq<seq<seq<char>>>, dimension: nat): (r: seq<seq<int>>)
    requires CentroidsFit(cs, dimension) && PartsFit(parts, dimension)
    ensures |r| == |parts|
    ensures forall w :: 0 <= w < |parts| ==> |r[w]| == |cs| * dimension * 4
  {
    seq(|parts|, w requires 0 <= w < |parts| => LocalTable(cs, parts[w], dimension))
  }

  /** Each worker's `categories` array. */
  function WorkerLabels(cs: seq<seq<char>>, parts: seq<seq<seq<char>>>, dimension: nat): (r: seq<seq<int>>)
    requires CentroidsFit(cs, dimension) && PartsFit(parts, dimension)
    ensures |r| == |parts|
    ensures forall w :: 0 <= w < |parts| ==> |r[w]| == |parts[w]|
  {
    seq(|parts|, w requires 0 <= w < |parts| => Labels(cs, parts[w], dimension))
  }

  /**
   * One round as the MPI program runs it: local labels and tables on every
   * worker, `MPI_Reduce` with `MPI_SUM` onto the coordinator, the vote and
   * the drift there, and the labels collected by `MPI_Gatherv` in rank order.
   */
  function DistributedRound(cs: seq<seq<char>>, parts: seq<seq<seq<char>>>, dimension: nat): (r: Round)
    requires CentroidsFit(cs, dimension) && PartsFit(parts, dimension)
    ensures RowsFit(Gather(parts), dimension)
    ensures r == SequentialRound(cs, Gather(parts), dimension)
  {
    ReducedTableIsGlobalTable(cs, parts, dimension);
    GatheredLabelsAreGlobalLabels(cs, parts, dimension);
    var news := NewCentroids(ReduceSum(WorkerTables(cs, parts, dimension), |cs| * dimension * 4), |cs|, dimension);
    Round(Gather(WorkerLabels(cs, parts, dimension)), news, TotalDifferences(news, cs, dimension) <= DnaDiffThreshold)
  }

  lemma {:induction false} ReducedTableIsGlobalTable(cs: seq<seq<char>>, parts: seq<seq<seq<char>>>, dimension: nat)
    requires CentroidsFit(cs, dimension) && PartsFit(parts, dimension)
    ensures RowsFit(Gather(parts), dimension)
    ensures ReduceSum(WorkerTables(cs, parts, dimension), |cs| * dimension * 4) == LocalTable(cs, Gather(parts), dimension)
  {
    GatherFits(parts, dimension);
    if |parts| > 0 {
      ReducedTableIsGlobalTable(cs, parts[1..], dimension);
      assert WorkerTables(cs, parts, dimension)[1..] == WorkerTables(cs, parts[1..], dimension);
      LocalTableAppend(cs, parts[0], Gather(parts[1..]), dimension);
    }
  }

  lemma LabelsAppend(cs: seq<seq<char>>, xs: seq<seq<char>>, ys: seq<seq<char>>, dimension: nat)
    requires RowsFit(cs, dimension) && RowsFit(xs, dimension) && RowsFit(ys, dimension)
    ensures Labels(cs, xs + ys, dimension) == Labels(cs, xs, dimension) + Labels(cs, ys, dimension)
  {
  }

  lemma {:induction false} GatheredLabelsAreGlobalLabels(cs: seq<seq<char>>, parts: seq<seq<seq<char>>>, dimension: nat)
    requires CentroidsFit(cs, dimension) && PartsFit(parts, dimension)
    ensures RowsFit(Gather(parts), dimension)
    ensures Gather(WorkerLabels(cs, parts, dimension)) == Labels(cs, Gather(parts), dimension)
  {
    GatherFits(parts, dimension);
    if |parts| > 0 {
      GatheredLabelsAreGlobalLabels(cs, parts[1..], dimension);
      assert WorkerLabels(cs, parts, dimension)[1..] == WorkerLabels(cs, parts[1..], dimension);
      GatherFits(parts[1..], dimension);
      LabelsAppend(cs, parts[0], Gather(parts[1..]), dimension);
    }
  }

  /** Any two ways of splitting the same records give the same round. */
  lemma PartitionIndependent(cs: seq<seq<char>>, parts1: seq<seq<seq<char>>>, parts2: seq<seq<seq<char>>>, dimension: nat)
    requires CentroidsFit(cs, dimension) && PartsFit(parts1, dimension) && PartsFit(parts2, dimension)
    requires Gather(parts1) == Gather(parts2)
    ensures DistributedRound(cs, parts1, dimension) == DistributedRound(cs, parts2, dimension)
  {
  }

  lemma {:induction false} ScatterFits(xs: seq<seq<char>>, counts: seq<int>, dimension: nat)
    requires forall w :: 0 <= w < |counts| ==> counts[w] >= 0
    requires Sum(counts) <= |xs| && RowsFit(xs, dimension)
    ensures PartsFit(Scatter(xs, counts), dimension)
  {
    if |counts| > 0 {
      SumNonNegative(counts[1..]);
      ScatterFits(xs[counts[0]..], counts[1..], dimension);
      assert Scatter(xs, counts)[1..] == Scatter(xs[counts[0]..], counts[1..]);
    }
  }

  /** Scattering the records by any counts that cover them and running the round there gives the single-node round. */
  lemma ScatteredRoundMatchesSequential(cs: seq<seq<char>>, xs: seq<seq<char>>, counts: seq<int>, dimension: nat)
    requires CentroidsFit(cs, dimension) && RowsFit(xs, dimension)
    requires forall w :: 0 <= w < |counts| ==> counts[w] >= 0
    requires Sum(counts) == |xs|
    ensures PartsFit(Scatter(xs, counts), dimension)
    ensures DistributedRound(cs, Scatter(xs, counts), dimension) == SequentialRound(cs, xs, dimension)
  {
    ScatterFits(xs, counts, dimension);
    GatherScatter(xs, counts);
  }

  /**
   * Scattering the records with the corrected planner's record counts over
   * `processNumber` workers and running the round there gives the
   * single-node round.
   */
  lemma PlannedRoundMatchesSequential(cs: seq<seq<char>>, xs: seq<seq<char>>, processNumber: nat, counts: seq<int>, dimension: nat)
    requires CentroidsFit(cs, dimension) && RowsFit(xs, dimension) && processNumber >= 1
    requires counts == RecordCounts(|xs|, processNumber)
    ensures forall w :: 0 <= w < |counts| ==> counts[w] >= 0
    ensures Sum(counts) == |xs|
    ensures PartsFit(Scatter(xs, counts), dimension)
    ensures DistributedRound(cs, Scatter(xs, counts), dimension) == SequentialRound(cs, xs, dimension)
  {
    ScatteredRoundMatchesSequential(cs, xs, counts, dimension);
  }

  /** What the loop leaves behind once it stops. */
  datatype Outcome = Outcome(labels: seq<int>, previous: seq<seq<char>>, centroids: seq<seq<char>>, rounds: nat, converged: bool)

  /**
   * The `do { ... } while (1)` loop, cut off after `fuel` rounds: it stops at
   * the first round whose flag is set, keeping that round's labels and the
   * centroids it voted.
   */
  function Iterate(cs: seq<seq<char>>, parts: seq<seq<seq<char>>>, dimension: nat, fuel: nat): (r: Outcome)
    requires CentroidsFit(cs, dimension) && PartsFit(parts, dimension) && fuel >= 1
    ensures RowsFit(Gather(parts), dimension)
    ensures 1 <= r.rounds <= fuel
    ensures r.converged || r.rounds == fuel
    ensures r.rounds == 1 ==> r.previous == cs
    ensures CentroidsFit(r.previous, dimension) && |r.previous| == |cs|
    ensures |r.labels| == |Gather(parts)|
    ensures forall i :: 0 <= i < |r.labels| ==> IsNearest(r.previous, Gather(parts)[i], dimension, r.labels[i])
    ensures r.centroids == SequentialRound(r.previous, Gather(parts), dimension).centroids
    ensures r.converged <==> |DriftPositions(r.centroids, r.previous, dimension)| <= 1
    decreases fuel
  {
    var round := DistributedRound(cs, parts, dimension);
    assert CentroidsFit(round.centroids, dimension);
    if round.converged || fuel == 1 then
      Outcome(round.labels, cs, round.centroids, 1, round.converged)
    else
      var next := Iterate(round.centroids, parts, dimension, fuel - 1);
      next.(rounds := next.rounds + 1)
  }

  /**
   * The loop's exit: it runs a single round exactly when the first round
   * raises the flag or is the last one the fuel allows, and then it keeps
   * that round's labels and centroids with `cs` as the previous centroids.
   */
  lemma IterateStops(cs: seq<seq<char>>, parts: seq<seq<seq<char>>>, dimension: nat, fuel: nat)
    requires CentroidsFit(cs, dimension) && PartsFit(parts, dimension) && fuel >= 1
    ensures RowsFit(Gather(parts), dimension)
    ensures var first, r := SequentialRound(cs, Gather(parts), dimension), Iterate(cs, parts, dimension, fuel);
      && (r.rounds == 1 <==> first.converged || fuel == 1)
      && (r.rounds == 1 ==> r == Outcome(first.labels, cs, first.centroids, 1, first.converged))
  {
    var round := DistributedRound(cs, parts, dimension);
  }

  /**
   * The loop's back edge: when the first round leaves the flag down and fuel
   * remains, the loop is the same loop started from that round's centroids,
   * counting one round more.
   */
  lemma IterateContinues(cs: seq<seq<char>>, parts: seq<seq<seq<char>>>, dimension: nat, fuel: nat)
    requires CentroidsFit(cs, dimension) && PartsFit(parts, dimension) && fuel >= 1
    ensures RowsFit(Gather(parts), dimension)
    ensures var first := SequentialRound(cs, Gather(parts), dimension);
      && CentroidsFit(first.centroids, dimension)
      && (!first.converged && fuel > 1 ==>
            var next := Iterate(first.centroids, parts, dimension, fuel - 1);
            Iterate(cs, parts, dimension, fuel) == next.(rounds := next.rounds + 1))
  {
    var first := DistributedRound(cs, parts, dimension);
    IterateUnfolds(cs, parts, dimension, fuel, first);
  }

  /** One unfolding of the loop from the round `first` it runs on `cs`. */
  lemma IterateUnfolds(cs: seq<seq<char>>, parts: seq<seq<seq<char>>>, dimension: nat, fuel: nat, first: Round)
    requires CentroidsFit(cs, dimension) && PartsFit(parts, dimension) && fuel >= 1
    requires first == DistributedRound(cs, parts, dimension)
    ensures CentroidsFit(first.centroids, dimension)
    ensures !first.converged && fuel > 1 ==>
      var next := Iterate(first.centroids, parts, dimension, fuel - 1);
      Iterate(cs, parts, dimension, fuel) == next.(rounds := next.rounds + 1)
  {
    assert CentroidsFit(first.centroids, dimension);
  }
}

=== FILE: hamming.dfy ===
/**
 * Position-wise comparison of fixed-width records over an arbitrary alphabet.
 * The C programs compare `char` strands, the test driver compares lists of
 * `String` tokens and the sequential program compares `char[]`; all of them
 * only ask whether two symbols are equal.
 */
module Hamming {

  /** Number of positions `i < n` at which `a` and `b` carry the same symbol. */
  function Agreements<T(==)>(a: seq<T>, b: seq<T>, n: nat): (r: nat)
    requires n <= |a| && n <= |b|
    ensures r <= n
  {
    if n == 0 then 0
    else Agreements(a, b, n - 1) + (if a[n - 1] == b[n - 1] then 1 else 0)
  }

  /** Number of positions `i < n` at which `a` and `b` differ. */
  function Differences<T(==)>(a: seq<T>, b: seq<T>, n: nat): (r: nat)
    requires n <= |a| && n <= |b|
    ensures r <= n
  {
    if n == 0 then 0
    else Differences(a, b, n - 1) + (if a[n - 1] != b[n - 1] then 1 else 0)
  }

  /** Reference definition: the set of positions below `n` where the records differ. */
  ghost function Mismatches<T>(a: seq<T>, b: seq<T>, n: nat): set<int>
    requires n <= |a| && n <= |b|
  {
    set i | 0 <= i < n && a[i] != b[i]
  }

  /** The counted distance is the size of the mismatch set. */
  lemma {:induction false} DifferencesCountsMismatches<T>(a: seq<T>, b: seq<T>, n: nat)
    requires n <= |a| && n <= |b|
    ensures Differences(a, b, n) == |Mismatches(a, b, n)|
  {
    if n > 0 {
      DifferencesCountsMismatches(a, b, n - 1);
      if a[n - 1] != b[n - 1] {
        assert Mismatches(a, b, n) == Mismatches(a, b, n - 1) + {n - 1};
      } else {
        assert Mismatches(a, b, n) == Mismatches(a, b, n - 1);
      }
    }
  }

  /** Every position either agrees or differs. */
  lemma {:induction false} AgreementsPlusDifferences<T>(a: seq<T>, b: seq<T>, n: nat)
    requires n <= |a| && n <= |b|
    ensures Agreements(a, b, n) + Differences(a, b, n) == n
  {
    if n > 0 {
      AgreementsPlusDifferences(a, b, n - 1);
    }
  }

  lemma {:induction false} DifferencesSymmetric<T>(a: seq<T>, b: seq<T>, n: nat)
    requires n <= |a| && n <= |b|
    ensures Differences(a, b, n) == Differences(b, a, n)
  {
    if n > 0 {
      DifferencesSymmetric(a, b, n - 1);
    }
  }

  lemma {:induction false} AgreementsSymmetric<T>(a: seq<T>, b: seq<T>, n: nat)
    requires n <= |a| && n <= |b|
    ensures Agreements(a, b, n) == Agreements(b, a, n)
  {
    if n > 0 {
      AgreementsSymmetric(a, b, n - 1);
    }
  }

  /** Distance zero exactly when the records agree on every position below `n`. */
  lemma {:induction false} DifferencesZeroIff<T>(a: seq<T>, b: seq<T>, n: nat)
    requires n <= |a| && n <= |b|
    ensures Differences(a, b, n) == 0 <==> forall i :: 0 <= i < n ==> a[i] == b[i]
  {
    if n > 0 {
      DifferencesZeroIff(a, b, n - 1);
    }
  }

  lemma DifferencesSelf<T>(a: seq<T>, n: nat)
    requires n <= |a|
    ensures Differences(a, a, n) == 0
    ensures Agreements(a, a, n) == n
  {
    DifferencesZeroIff(a, a, n);
    AgreementsPlusDifferences(a, a, n);
  }

  /** Sum of the position-wise distances of paired records, the drift between two centroid sets. */
  function TotalDifferences<T(==)>(xs: seq<seq<T>>, ys: seq<seq<T>>, n: nat): (r: nat)
    requires |xs| == |ys|
    requires forall i :: 0 <= i < |xs| ==> n <= |xs[i]| && n <= |ys[i]|
    ensures r <= |xs| * n
  {
    if |xs| == 0 then 0
    else
      TotalDifferences(xs[..|xs| - 1], ys[..|ys| - 1], n)
      + Differences(xs[|xs| - 1], ys[|ys| - 1], n)
  }

  /** Zero drift exactly when every paired record agrees on every position below `n`. */
  lemma {:induction false} TotalDifferencesZeroIff<T>(xs: seq<seq<T>>, ys: seq<seq<T>>, n: nat)
    requires |xs| == |ys|
    requires forall i :: 0 <= i < |xs| ==> n <= |xs[i]| && n <= |ys[i]|
    ensures TotalDifferences(xs, ys, n) == 0
        <==> forall i, j :: 0 <= i < |xs| && 0 <= j < n ==> xs[i][j] == ys[i][j]
  {
    if |xs| > 0 {
      var k := |xs| - 1;
      TotalDifferencesZeroIff(xs[..k], ys[..k], n);
      DifferencesZeroIff(xs[k], ys[k], n);
      assert forall i :: 0 <= i < k ==> xs[..k][i] == xs[i] && ys[..k][i] == ys[i];
    }
  }
}

=== FILE: java_driver.dfy ===
/**
 * The single-process Java driver: strands are lists of one-letter strings,
 * similarity counts equal positions, each strand is tagged with the first
 * most similar centroid, four count tables are filled, a chain of `>=` tests
 * votes each new centroid, and the loop has converged when no centroid
 * changed at any position.
 */
module JavaDriver {
  import opened Wrappers
  import opened Hamming
  import opened Util
  import opened Nearest
  import opened Vote
  import DnaRound

  /** A strand as the driver reads it: the comma-separated fields of one line. */
  type Strand = seq<string>

  /** The four base names the counting chain compares with. */
  const Bases: seq<string> := ["A", "C", "G", "T"]

  /** `simDNA`'s loop from position `ii` on, with `sim` the running value. */
  function SimLoop(p1: Strand, p2: Strand, ii: nat, sim: int): (r: int)
    requires ii <= |p1| <= |p2|
    ensures r == sim - (Differences(p1, p2, |p1|) - Differences(p1, p2, ii))
    decreases |p1| - ii
  {
    if ii == |p1| then sim
    else SimLoop(p1, p2, ii + 1, if p1[ii] != p2[ii] then sim - 1 else sim)
  }

  /** `simDNA`: start from the length of `p1` and drop one per differing position. */
  function SimDna(p1: Strand, p2: Strand): (sim: int)
    requires |p1| <= |p2|
    ensures sim == Agreements(p1, p2, |p1|)
    ensures sim == |p1| - Differences(p1, p2, |p1|)
    ensures 0 <= sim <= |p1|
  {
    AgreementsPlusDifferences(p1, p2, |p1|);
    SimLoop(p1, p2, 0, |p1|)
  }

  lemma SimDnaSelf(p: Strand)
    ensures SimDna(p, p) == |p|
  {
    DifferencesSelf(p, |p|);
  }

  lemma SimDnaSymmetric(p1: Strand, p2: Strand)
    requires |p1| == |p2|
    ensures SimDna(p1, p2) == SimDna(p2, p1)
  {
    AgreementsSymmetric(p1, p2, |p1|);
  }

  /** The `for` loop of `tooSimilar` from index `iter` on, returning at the first hit. */
  function TooSimilarFrom(one: Strand, list: seq<Strand>, maxSim: int, iter: nat): (r: bool)
    requires iter <= |list|
    requires forall i :: 0 <= i < |list| ==> |one| <= |list[i]|
    ensures r <==> exists i :: iter <= i < |list| && Differences(one, list[i], |one|) < |one| - maxSim
    decreases |list| - iter
  {
    if iter == |list| then false
    else if SimDna(one, list[iter]) > maxSim then true
    else TooSimilarFrom(one, list, maxSim, iter + 1)
  }

  /**
   * `tooSimilar`: some listed strand shares more than `maxSim` positions with
   * `one`, that is, lies closer than `|one| - maxSim`; never for an empty list.
   */
  function TooSimilar(one: Strand, list: seq<Strand>, maxSim: int): (r: bool)
    requires forall i :: 0 <= i < |list| ==> |one| <= |list[i]|
    ensures r <==> exists i :: 0 <= i < |list| && SimDna(one, list[i]) > maxSim
    ensures r <==> exists i :: 0 <= i < |list| && Differences(one, list[i], |one|) < |one| - maxSim
    ensures |list| == 0 ==> !r
  {
    TooSimilarFrom(one, list, maxSim, 0)
  }

  /** `Collections.max` of a non-empty list. */
  function MaxOf(s: seq<int>): (m: int)
    requires |s| > 0
    ensures m in s
    ensures forall i :: 0 <= i < |s| ==> s[i] <= m
  {
    if |s| == 1 then s[0]
    else
      var rest := MaxOf(s[1..]);
      assert forall i :: 1 <= i < |s| ==> s[i] == s[1..][i - 1];
      if s[0] >= rest then s[0] else rest
  }

  /** `List.indexOf`: the first position holding `v`, or -1. */
  function IndexOf(s: seq<int>, v: int): (r: int)
    ensures -1 <= r < |s|
    ensures r >= 0 ==> s[r] == v && forall i :: 0 <= i < r ==> s[i] != v
    ensures r == -1 <==> v !in s
  {
    if |s| == 0 then -1
    else if s[0] == v then 0
    else
      var rest := IndexOf(s[1..], v);
      assert forall i :: 1 <= i < |s| ==> s[i] == s[1..][i - 1];
      if rest == -1 then -1 else rest + 1
  }

  /** Every centroid the loop reads is at least as long as the strand it is compared with. */
  predicate CentroidsCover(cs: seq<Strand>, k: nat, len: nat)
  {
    k <= |cs| && forall j :: 0 <= j < k ==> len <= |cs[j]|
  }

  /** The `sims` list of one strand against the first `k` centroids. */
  function Sims(x: Strand, cs: seq<Strand>, k: nat): (r: seq<int>)
    requires CentroidsCover(cs, k, |x|)
    ensures |r| == k
    ensures forall j :: 0 <= j < k ==> r[j] == SimDna(x, cs[j])
  {
    seq(k, j requires 0 <= j < k => SimDna(x, cs[j]))
  }

  /** `sims.indexOf(Collections.max(sims))`. */
  function Tag(x: Strand, cs: seq<Strand>, k: nat): (tag: int)
    requires 1 <= k && CentroidsCover(cs, k, |x|)
    ensures 0 <= tag < k
    ensures forall j :: 0 <= j < k ==> SimDna(x, cs[j]) <= SimDna(x, cs[tag])
    ensures forall j :: 0 <= j < tag ==> SimDna(x, cs[j]) < SimDna(x, cs[tag])
  {
    var sims := Sims(x, cs, k);
    IndexOf(sims, MaxOf(sims))
  }

  /**
   * The tag is the C program's label: the first centroid at least Hamming
   * distance, since similarity is length minus distance.
   */
  lemma TagIsNearest(x: Strand, cs: seq<Strand>, k: nat)
    requires 1 <= k && CentroidsCover(cs, k, |x|) && |x| < MaxDiff
    ensures Tag(x, cs, k) == Label(cs[..k], x, |x|)
  {
    var d := |x|;
    var cs' := cs[..k];
    forall j | 0 <= j < k
      ensures SimDna(x, cs[j]) == d - Differences(cs'[j], x, d)
    {
      DifferencesSymmetric(x, cs[j], d);
    }
    NearestUnique(cs', x, d, Tag(x, cs, k), Label(cs', x, d));
  }

  /** The `equals` chain of the counting loop: which table a field goes to, if any. */
  function BaseIndex(b: string): (r: Option<nat>)
    ensures r.Some? ==> r.value < 4 && Bases[r.value] == b
    ensures r.None? ==> b !in Bases
  {
    if b == "A" then Some(0)
    else if b == "C" then Some(1)
    else if b == "G" then Some(2)
    else if b == "T" then Some(3)
    else None
  }

  /** `tagCountA`, `tagCountC`, `tagCountG`, `tagCountT` as `counts[b][tag][j]`. */
  predicate Shaped(counts: seq<seq<seq<int>>>, k: nat, len: nat)
  {
    |counts| == 4 &&
    forall b :: 0 <= b < 4 ==> |counts[b]| == k && forall t :: 0 <= t < k ==> |counts[b][t]| == len
  }

  /** The all-zero tables a fresh `new int[k_param][lenDNA]` gives. */
  function ZeroCounts(k: nat, len: nat): (r: seq<seq<seq<int>>>)
    ensures Shaped(r, k, len)
    ensures forall b, t, j :: 0 <= b < 4 && 0 <= t < k && 0 <= j < len ==> r[b][t][j] == 0
  {
    seq(4, b => seq(k, t => seq(len, j => 0)))
  }

  /** The inner loop over positions `0 .. n-1` of one strand tagged `tag`. */
  function AddStrand(counts: seq<seq<seq<int>>>, k: nat, len: nat, tag: nat, x: Strand, n: nat): (r: seq<seq<seq<int>>>)
    requires Shaped(counts, k, len) && tag < k && n <= len <= |x|
    ensures Shaped(r, k, len)
    ensures forall b, t, j :: 0 <= b < 4 && 0 <= t < k && 0 <= j < len ==>
      r[b][t][j] == counts[b][t][j] + (if t == tag && j < n && BaseIndex(x[j]) == Some(b) then 1 else 0)
  {
    if n == 0 then counts
    else
      var prev := AddStrand(counts, k, len, tag, x, n - 1);
      match BaseIndex(x[n - 1])
      case Some(b) => prev[b := prev[b][tag := prev[b][tag][n - 1 := prev[b][tag][n - 1] + 1]]]
      case None => prev
  }

  /** Every strand has exactly `len` fields. */
  predicate Uniform(xs: seq<Strand>, len: nat)
  {
    forall i :: 0 <= i < |xs| ==> |xs[i]| == len
  }

  /**
   * The tagging and counting loop over the strands: each counter ends up
   * holding the number of strands with that tag and that base at that position.
   */
  function CountAll(cs: seq<Strand>, xs: seq<Strand>, k: nat, len: nat): (r: seq<seq<seq<int>>>)
    requires 1 <= k && CentroidsCover(cs, k, len) && Uniform(xs, len)
    ensures Shaped(r, k, len)
    ensures forall b, t, j :: 0 <= b < 4 && 0 <= t < k && 0 <= j < len ==> r[b][t][j] == |Tagged(cs, xs, k, len, b, t, j)|
  {
    if |xs| == 0 then ZeroCounts(k, len)
    else
      var n := |xs| - 1;
      var prev := CountAll(cs, xs[..n], k, len);
      var r := AddStrand(prev, k, len, Tag(xs[n], cs, k), xs[n], len);
      CountStepTagged(cs, xs, k, len, prev, r);
      r
  }

  /** The strands tagged `t` whose field `j` names base `b`. */
  ghost function Tagged(cs: seq<Strand>, xs: seq<Strand>, k: nat, len: nat, b: nat, t: int, j: nat): set<int>
    requires 1 <= k && CentroidsCover(cs, k, len) && Uniform(xs, len) && j < len
  {
    set i | 0 <= i < |xs| && Tag(xs[i], cs, k) == t && BaseIndex(xs[i][j]) == Some(b)
  }

  lemma TaggedStep(cs: seq<Strand>, xs: seq<Strand>, k: nat, len: nat, b: nat, t: int, j: nat)
    requires 1 <= k && CentroidsCover(cs, k, len) && Uniform(xs, len) && j < len && |xs| > 0
    ensures var n := |xs| - 1;
      Tagged(cs, xs, k, len, b, t, j) == Tagged(cs, xs[..n], k, len, b, t, j)
        + (if Tag(xs[n], cs, k) == t && BaseIndex(xs[n][j]) == Some(b) then {n} else {})
  {
    var n := |xs| - 1;
    assert forall i :: 0 <= i < n ==> xs[..n][i] == xs[i];
  }

  /** Counting one more strand turns the counts of the shorter list into those of the longer one. */
  lemma CountStepTagged(cs: seq<Strand>, xs: seq<Strand>, k: nat, len: nat, prev: seq<seq<seq<int>>>, r: seq<seq<seq<int>>>)
    requires 1 <= k && CentroidsCover(cs, k, len) && Uniform(xs, len) && |xs| > 0
    requires Shaped(prev, k, len) && Shaped(r, k, len)
    requires forall b, t, j :: 0 <= b < 4 && 0 <= t < k && 0 <= j < len ==>
      prev[b][t][j] == |Tagged(cs, xs[..|xs| - 1], k, len, b, t, j)|
    requires forall b, t, j :: 0 <= b < 4 && 0 <= t < k && 0 <= j < len ==>
      r[b][t][j] == prev[b][t][j] + (if t == Tag(xs[|xs| - 1], cs, k) && j < len && BaseIndex(xs[|xs| - 1][j]) == Some(b) then 1 else 0)
    ensures forall b, t, j :: 0 <= b < 4 && 0 <= t < k && 0 <= j < len ==> r[b][t][j] == |Tagged(cs, xs, k, len, b, t, j)|
  {
    var n := |xs| - 1;
    forall b, t, j | 0 <= b < 4 && 0 <= t < k && 0 <= j < len
      ensures r[b][t][j] == |Tagged(cs, xs, k, len, b, t, j)|
    {
      TaggedStep(cs, xs, k, len, b, t, j);
      assert n !in Tagged(cs, xs[..n], k, len, b, t, j);
    }
  }

  /** `updatedCentroid` for cluster `i`: one voted base name per position. */
  function UpdatedCentroid(counts: seq<seq<seq<int>>>, k: nat, len: nat, i: nat): (r: Strand)
    requires Shaped(counts, k, len) && i < k
    ensures |r| == len
    ensures forall j :: 0 <= j < len ==>
      |r[j]| == 1 && MajorityChoice(r[j][0], counts[0][i][j], counts[1][i][j], counts[2][i][j], counts[3][i][j])
  {
    seq(len, j requires 0 <= j < len => JavaVote(counts[0][i][j], counts[1][i][j], counts[2][i][j], counts[3][i][j]).value)
  }

  /**
   * The update loop: replaces the first `k` centroids by their votes, keeps
   * the rest, and clears `converged` at the first position that changed.
   */
  method Update(counts: seq<seq<seq<int>>>, cs: seq<Strand>, k: nat, len: nat) returns (news: seq<Strand>, converged: bool)
    requires Shaped(counts, k, len) && CentroidsCover(cs, k, len)
    ensures |news| == |cs| && news[k..] == cs[k..]
    ensures forall i :: 0 <= i < k ==> news[i] == UpdatedCentroid(counts, k, len, i)
    ensures forall i :: 0 <= i < k ==> |news[i]| == len
    ensures converged <==> forall i, j :: 0 <= i < k && 0 <= j < len ==> news[i][j] == cs[i][j]
    ensures converged <==> TotalDifferences(news[..k], cs[..k], len) == 0
  {
    news := cs;
    converged := true;
    var i := 0;
    while i < k
      invariant 0 <= i <= k
      invariant |news| == |cs| && forall m :: i <= m < |cs| ==> news[m] == cs[m]
      invariant forall i' :: 0 <= i' < i ==> news[i'] == UpdatedCentroid(counts, k, len, i')
      invariant converged <==> forall i', j :: 0 <= i' < i && 0 <= j < len ==> news[i'][j] == cs[i'][j]
    {
      var updated := UpdatedCentroid(counts, k, len, i);
      var j := 0;
      var same := true;
      while j < len
        invariant 0 <= j <= len
        invariant same <==> forall j' :: 0 <= j' < j ==> updated[j'] == cs[i][j']
      {
        if updated[j] != cs[i][j] {
          same := false;
        }
        j := j + 1;
      }
      converged := converged && same;
      news := news[i := updated];
      i := i + 1;
    }
    assert news[k..] == cs[k..];
    TotalDifferencesZeroIff(news[..k], cs[..k], len);
  }

  /** The `tags` list: one tag per strand, in input order. */
  function Tags(cs: seq<Strand>, xs: seq<Strand>, k: nat, len: nat): (r: seq<int>)
    requires 1 <= k && CentroidsCover(cs, k, len) && Uniform(xs, len) && len < MaxDiff
    ensures r == Labels(cs[..k], xs, len)
  {
    forall i | 0 <= i < |xs|
      ensures Tag(xs[i], cs, k) == Label(cs[..k], xs[i], len)
    {
      TagIsNearest(xs[i], cs, k);
    }
    seq(|xs|, i requires 0 <= i < |xs| => Tag(xs[i], cs, k))
  }

  /**
   * One pass of the `while (!converged)` loop: tag, count, vote, compare.
   * The tags are the C programs' labels; each new base wins the vote among the
   * strands tagged with that centroid; convergence implies the C flag.
   */
  method Round(cs: seq<Strand>, xs: seq<Strand>, k: nat, len: nat) returns (tags: seq<int>, news: seq<Strand>, converged: bool)
    requires 1 <= k && CentroidsCover(cs, k, len) && Uniform(xs, len) && len < MaxDiff
    ensures tags == Labels(cs[..k], xs, len)
    ensures |news| == |cs| && news[k..] == cs[k..]
    ensures forall i :: 0 <= i < k ==> |news[i]| == len
    ensures forall i, j :: 0 <= i < k && 0 <= j < len ==>
      |news[i][j]| == 1 &&
      MajorityChoice(news[i][j][0], |Tagged(cs, xs, k, len, 0, i, j)|, |Tagged(cs, xs, k, len, 1, i, j)|,
                                    |Tagged(cs, xs, k, len, 2, i, j)|, |Tagged(cs, xs, k, len, 3, i, j)|)
    ensures converged <==> forall i, j :: 0 <= i < k && 0 <= j < len ==> news[i][j] == cs[i][j]
    ensures converged ==> TotalDifferences(news[..k], cs[..k], len) <= DnaRound.DnaDiffThreshold
  {
    tags := Tags(cs, xs, k, len);
    var counts := CountAll(cs, xs, k, len);
    news, converged := Update(counts, cs, k, len);
  }
}

=== FILE: nearest.dfy ===
/**
 * Nearest-centroid labelling. The C scan starts from `category = -1` and a
 * best distance of `MAX_DIFF`, and takes centroid `j` only when its distance
 * is strictly smaller than the best so far, so the lowest index wins ties.
 */
module Nearest {
  import opened Hamming
  import opened Util

  /** `k` is a centroid at minimal distance from `x`, and no earlier centroid is as close. */
  ghost predicate IsNearest<T>(cs: seq<seq<T>>, x: seq<T>, d: nat, k: int)
    requires d <= |x|
    requires forall j :: 0 <= j < |cs| ==> d <= |cs[j]|
  {
    && 0 <= k < |cs|
    && (forall j :: 0 <= j < |cs| ==> Differences(cs[k], x, d) <= Differences(cs[j], x, d))
    && (forall j :: 0 <= j < k ==> Differences(cs[k], x, d) < Differences(cs[j], x, d))
  }

  /** At most one index is the nearest in this sense. */
  lemma NearestUnique<T>(cs: seq<seq<T>>, x: seq<T>, d: nat, k1: int, k2: int)
    requires d <= |x|
    requires forall j :: 0 <= j < |cs| ==> d <= |cs[j]|
    requires IsNearest(cs, x, d, k1) && IsNearest(cs, x, d, k2)
    ensures k1 == k2
  {
    assert Differences(cs[k1], x, d) == Differences(cs[k2], x, d);
  }

  /**
   * The scan over centroids `j .. |cs|-1`, having kept `category` with
   * distance `best` among the centroids before `j`.
   */
  function ScanFrom<T(==)>(cs: seq<seq<T>>, x: seq<T>, d: nat, j: nat, best: int, category: int): (r: int)
    requires d <= |x|
    requires forall i :: 0 <= i < |cs| ==> d <= |cs[i]|
    requires -1 <= category < j <= |cs|
    requires forall i :: 0 <= i < j ==> best <= Differences(cs[i], x, d)
    requires category >= 0 ==> best == Differences(cs[category], x, d)
    requires category >= 0 ==> forall i :: 0 <= i < category ==> best < Differences(cs[i], x, d)
    ensures -1 <= r < |cs|
    ensures r == -1 ==> category == -1 && forall i :: 0 <= i < |cs| ==> best <= Differences(cs[i], x, d)
    ensures r >= 0 ==> forall i :: 0 <= i < |cs| ==> Differences(cs[r], x, d) <= Differences(cs[i], x, d)
    ensures r >= 0 ==> forall i :: 0 <= i < r ==> Differences(cs[r], x, d) < Differences(cs[i], x, d)
    decreases |cs| - j
  {
    if j == |cs| then category
    else
      var dist := Differences(cs[j], x, d);
      if dist < best then ScanFrom(cs, x, d, j + 1, dist, j)
      else ScanFrom(cs, x, d, j + 1, best, category)
  }

  /**
   * The label of one record: -1 when there are no centroids, otherwise the
   * lowest index of minimal distance (every distance is at most `d`, below
   * `MAX_DIFF`, so the first centroid always replaces the initial -1).
   */
  function Label<T(==)>(cs: seq<seq<T>>, x: seq<T>, d: nat): (r: int)
    requires d <= |x|
    requires forall i :: 0 <= i < |cs| ==> d <= |cs[i]|
    ensures -1 <= r < |cs|
    ensures |cs| == 0 ==> r == -1
    ensures |cs| > 0 && d < MaxDiff ==> IsNearest(cs, x, d, r)
  {
    ScanFrom(cs, x, d, 0, MaxDiff, -1)
  }

  /** Labels of a worker's records, in record order (`categories`). */
  function Labels<T(==)>(cs: seq<seq<T>>, xs: seq<seq<T>>, d: nat): (r: seq<int>)
    requires forall i :: 0 <= i < |xs| ==> d <= |xs[i]|
    requires forall i :: 0 <= i < |cs| ==> d <= |cs[i]|
    ensures |r| == |xs|
    ensures |cs| > 0 && d < MaxDiff ==> forall i :: 0 <= i < |xs| ==> IsNearest(cs, xs[i], d, r[i])
  {
    seq(|xs|, i requires 0 <= i < |xs| => Label(cs, xs[i], d))
  }
}

=== FILE: partition.dfy ===
/**
 * The partition planner shared by the three MPI programs: the common share
 * `handleNumbers`, the per-worker element counts `handleLines`, the scatter
 * offsets `startIndexes`, and the same arrays divided down to record counts
 * and displacements for the label gather.
 */
module Partition {

  /** Sum of a sequence of counts. */
  function Sum(s: seq<int>): int
  {
    if |s| == 0 then 0 else s[0] + Sum(s[1..])
  }

  lemma {:induction false} SumAppend(s: seq<int>, t: seq<int>)
    ensures Sum(s + t) == Sum(s) + Sum(t)
  {
    if |s| > 0 {
      assert (s + t)[1..] == s[1..] + t;
      SumAppend(s[1..], t);
    } else {
      assert s + t == t;
    }
  }

  lemma SumPrefixStep(s: seq<int>, i: nat)
    requires i < |s|
    ensures Sum(s[..i + 1]) == Sum(s[..i]) + s[i]
  {
    assert s[..i + 1] == s[..i] + [s[i]];
    SumAppend(s[..i], [s[i]]);
  }

  /** `n` equal counts sum to `n * h`. */
  lemma {:induction false} SumConstant(h: int, n: nat)
    ensures Sum(seq(n, _ => h)) == n * h
  {
    if n > 0 {
      assert seq(n, _ => h)[1..] == seq(n - 1, _ => h);
      SumConstant(h, n - 1);
    }
  }

  /** Scaling every count scales the sum. */
  lemma {:induction false} SumScale(s: seq<int>, d: int)
    ensures Sum(seq(|s|, i requires 0 <= i < |s| => s[i] * d)) == Sum(s) * d
  {
    if |s| > 0 {
      var t := seq(|s|, i requires 0 <= i < |s| => s[i] * d);
      assert t[1..] == seq(|s[1..]|, i requires 0 <= i < |s[1..]| => s[1..][i] * d);
      SumScale(s[1..], d);
    }
  }

  /** C99 integer division by a positive divisor: the quotient is truncated toward zero. */
  function CDiv(a: int, b: int): (q: int)
    requires b > 0
    ensures a >= 0 ==> q >= 0 && 0 <= a - q * b < b
    ensures a < 0 ==> -b < a - q * b <= 0
  {
    if a >= 0 then
      assert a == a / b * b + a % b;
      a / b
    else
      var m, rest := (-a) / b, (-a) % b;
      assert -a == m * b + rest && 0 <= rest < b;
      assert (-m) * b == -(m * b);
      -m
  }

  /**
   * `handleNumbers`: `lineNums / processNumber` records' worth of elements, plus
   * one ELEMENT (not one record) when the division leaves a remainder.
   */
  function HandleNumbers(lineNums: nat, processNumber: nat, dimension: nat): (r: int)
    requires processNumber >= 1
    ensures r >= 0
    ensures lineNums % processNumber == 0 ==> r * processNumber == lineNums * dimension
    ensures dimension >= 2 ==>
      && r / dimension == lineNums / processNumber
      && (r % dimension == 1 <==> lineNums % processNumber > 0)
      && (r % dimension == 0 <==> lineNums % processNumber == 0)
  {
    var q := lineNums / processNumber;
    if lineNums % processNumber > 0 then
      RecordsAndRest(q, dimension, 1);
      q * dimension + 1
    else
      EvenHandle(lineNums, processNumber, dimension);
      RecordsAndRest(q, dimension, 0);
      q * dimension
  }

  /** On an even split the `p` equal shares cover all elements. */
  lemma EvenHandle(lineNums: nat, p: nat, dimension: nat)
    requires p >= 1 && lineNums % p == 0
    ensures lineNums / p * dimension * p == lineNums * dimension
  {
    var q := lineNums / p;
    assert lineNums == q * p;
    assert q * dimension * p == q * p * dimension;
  }

  /** `q` whole records and `e` stray elements: the quotient and remainder by the width. */
  lemma RecordsAndRest(q: nat, d: nat, e: nat)
    requires e <= 1
    ensures d >= 2 ==> (q * d + e) / d == q && (q * d + e) % d == e
  {
    if d >= 2 {
      var g, m := (q * d + e) / d, (q * d + e) % d;
      assert (q - g) * d == m - e;
      if m >= e {
        SmallMultipleIsZero(q - g, d);
      } else {
        assert (g - q) * d == e - m;
        SmallMultipleIsZero(g - q, d);
      }
    }
  }

  /**
   * `handleLines`: workers `0 .. p-2` get `handleNumbers` elements, the last
   * worker gets whatever remains of the `lineNums * dimension` elements.
   */
  function Shares(lineNums: nat, processNumber: nat, dimension: nat): (r: seq<int>)
    requires processNumber >= 1
    ensures |r| == processNumber
    ensures forall i :: 0 <= i < processNumber - 1 ==> r[i] == HandleNumbers(lineNums, processNumber, dimension)
    ensures Sum(r) == lineNums * dimension
  {
    var h := HandleNumbers(lineNums, processNumber, dimension);
    var last := lineNums * dimension - (processNumber - 1) * h;
    SumConstantThenLast(h, processNumber - 1, last);
    seq(processNumber, i => if i < processNumber - 1 then h else last)
  }

  /** `n` equal counts followed by one more. */
  lemma SumConstantThenLast(h: int, n: nat, last: int)
    ensures Sum(seq(n + 1, i => if i < n then h else last)) == n * h + last
  {
    assert seq(n + 1, i => if i < n then h else last) == seq(n, _ => h) + [last];
    SumAppend(seq(n, _ => h), [last]);
    SumConstant(h, n);
  }

  /** Running sums of `s` starting at `offset`. */
  function StartsFrom(s: seq<int>, offset: int): (r: seq<int>)
    ensures |r| == |s|
    ensures forall i :: 0 <= i < |s| ==> r[i] == offset + Sum(s[..i])
  {
    if |s| == 0 then []
    else
      var rest := StartsFrom(s[1..], offset + s[0]);
      assert forall i :: 1 <= i <= |s| ==> s[..i][1..] == s[1..][..i - 1];
      [offset] + rest
  }

  /**
   * The offset loop: worker `i` starts where worker `i-1` ended, so the
   * partitions are contiguous, disjoint and end at the total.
   */
  function Starts(s: seq<int>): (r: seq<int>)
    ensures |r| == |s|
    ensures |s| > 0 ==> r[0] == 0
    ensures forall i {:trigger s[i]} :: 0 <= i < |s| - 1 ==> r[i + 1] == r[i] + s[i]
    ensures |s| > 0 ==> r[|s| - 1] + s[|s| - 1] == Sum(s)
  {
    var r := StartsFrom(s, 0);
    assert s[..|s|] == s;
    assert forall i :: 0 <= i < |s| ==> Sum(s[..i + 1]) == Sum(s[..i]) + s[i] by {
      forall i | 0 <= i < |s| {
        SumPrefixStep(s, i);
      }
    }
    r
  }

  /** The offsets of all but the first worker are the first share plus the offsets of the rest. */
  lemma StartsShift(s: seq<int>, w: nat)
    requires 0 < w < |s|
    ensures Starts(s)[w] == s[0] + Starts(s[1..])[w - 1]
  {
    StartsArePrefixSums(s, w);
    StartsArePrefixSums(s[1..], w - 1);
    assert s[..w][1..] == s[1..][..w - 1];
  }

  /** Offset `w` is the sum of the shares before it. */
  lemma StartsArePrefixSums(s: seq<int>, w: nat)
    requires w < |s|
    ensures Starts(s)[w] == Sum(s[..w])
  {
    assert Starts(s) == StartsFrom(s, 0);
  }

  /** The gather loop's `handleLines[i] /= dimension`, with C truncation for a negative share. */
  function GatherCounts(shares: seq<int>, dimension: nat): (r: seq<int>)
    requires dimension >= 1
    ensures |r| == |shares|
    ensures forall i :: 0 <= i < |shares| && shares[i] >= 0 ==>
      0 <= r[i] && r[i] * dimension <= shares[i] < r[i] * dimension + dimension
  {
    seq(|shares|, i requires 0 <= i < |shares| => CDiv(shares[i], dimension))
  }

  /**
   * `handleRows = handleLines[rank] / dimension`: the number of whole records
   * in a worker's share, which is also the count the label gather expects
   * from that worker. A negative share (see the findings) gives a count at
   * or below zero.
   */
  function LocalRows(lineNums: nat, processNumber: nat, dimension: nat, rank: nat): (rows: int)
    requires processNumber >= 1 && dimension >= 1 && rank < processNumber
    ensures var share := Shares(lineNums, processNumber, dimension)[rank];
      && (share >= 0 ==> 0 <= rows && rows * dimension <= share < rows * dimension + dimension)
      && (share < 0 ==> rows <= 0 && rows * dimension - dimension < share <= rows * dimension)
    ensures rows == GatherCounts(Shares(lineNums, processNumber, dimension), dimension)[rank]
  {
    CDiv(Shares(lineNums, processNumber, dimension)[rank], dimension)
  }

  /**
   * The workers' row counts add up to `lineNums` exactly when the lines split
   * evenly or records are one element wide; otherwise the extra element per
   * share makes the workers label fewer rows than there are lines.
   */
  lemma RowsTotal(lineNums: nat, processNumber: nat, dimension: nat)
    requires processNumber >= 1 && dimension >= 1
    ensures Sum(GatherCounts(Shares(lineNums, processNumber, dimension), dimension)) <= lineNums
    ensures Sum(GatherCounts(Shares(lineNums, processNumber, dimension), dimension)) == lineNums
      <==> lineNums % processNumber == 0 || dimension == 1
  {
    var shares := Shares(lineNums, processNumber, dimension);
    var g := GatherCounts(shares, dimension);
    if lineNums % processNumber == 0 {
      EvenSplit(lineNums, processNumber, dimension);
    } else if dimension == 1 {
      assert g == shares by {
        forall i | 0 <= i < processNumber
          ensures g[i] == shares[i]
        {
          assert shares[i] - g[i] == 0;
        }
      }
    } else {
      RemainderRowsFallShort(lineNums, processNumber, dimension);
    }
  }

  /** With a remainder and records wider than one element, the row counts fall short of `lineNums`. */
  lemma RemainderRowsFallShort(lineNums: nat, processNumber: nat, dimension: nat)
    requires processNumber >= 1 && dimension >= 2 && lineNums % processNumber > 0
    ensures Sum(GatherCounts(Shares(lineNums, processNumber, dimension), dimension)) < lineNums
  {
    var p, d := processNumber, dimension;
    var q, rem := lineNums / p, lineNums % p;
    var h := HandleNumbers(lineNums, p, d);
    var last := lineNums * d - (p - 1) * h;
    var a, b := CDiv(h, d), CDiv(last, d);
    QuotientOfOneMore(q, d);
    LastShareOnRemainder(lineNums, p, d);
    LastRowsShort(last, q + rem, d);
    GatherCountsOfShares(lineNums, p, d);
    SumConstantThenLast(a, p - 1, b);
    assert a == q && b < q + rem;
    ShortTotal(lineNums, p, b);
  }

  /** `p - 1` full quotients and a last count below quotient plus remainder fall short. */
  lemma ShortTotal(lineNums: nat, p: nat, b: int)
    requires p >= 1 && b < lineNums / p + lineNums % p
    ensures (p - 1) * (lineNums / p) + b < lineNums
  {
    var q := lineNums / p;
    assert lineNums == p * q + lineNums % p;
    assert (p - 1) * q + q == p * q;
  }

  /** The gather counts are `p - 1` equal counts and the last worker's. */
  lemma GatherCountsOfShares(lineNums: nat, p: nat, d: nat)
    requires p >= 1 && d >= 1
    ensures var h := HandleNumbers(lineNums, p, d);
      GatherCounts(Shares(lineNums, p, d), d)
        == seq(p, i => if i < p - 1 then CDiv(h, d) else CDiv(lineNums * d - (p - 1) * h, d))
  {
  }

  /** On a remainder the last share is `q + rem` records less `p - 1` elements. */
  lemma LastShareOnRemainder(lineNums: nat, p: nat, d: nat)
    requires p >= 1 && lineNums % p > 0
    ensures HandleNumbers(lineNums, p, d) == lineNums / p * d + 1
    ensures lineNums * d - (p - 1) * HandleNumbers(lineNums, p, d) == (lineNums / p + lineNums % p) * d - (p - 1)
  {
    var q, rem := lineNums / p, lineNums % p;
    var h := q * d + 1;
    assert lineNums == p * q + rem;
    assert lineNums * d == p * (q * d) + rem * d;
    assert (p - 1) * h == p * (q * d) - q * d + p - 1;
  }

  /** Truncating `m * d - e` elements, `e >= 1`, gives fewer than `m` records. */
  lemma LastRowsShort(last: int, m: int, d: nat)
    requires d >= 2 && m >= 1 && last < m * d
    ensures CDiv(last, d) < m
  {
    var b := CDiv(last, d);
    if last >= 0 {
      if b >= m {
        MultipleGrowsBy(b, m, d);
        assert false;
      }
    } else if b >= 1 {
      MultipleGrows(b, d);
      assert false;
    }
  }

  /** One element more than `q` whole records is still `q` records. */
  lemma QuotientOfOneMore(q: nat, d: nat)
    requires d >= 2
    ensures CDiv(q * d + 1, d) == q
  {
    var g := CDiv(q * d + 1, d);
    assert (q - g) * d == q * d - g * d;
    assert 0 <= (g - q) * d + d - 1 && (g - q) * d <= 1 by {
      assert (g - q) * d == g * d - q * d;
    }
    if g > q {
      MultipleGrows(g - q, d);
      assert false;
    } else if g < q {
      MultipleShrinks(g - q, d);
      assert false;
    }
  }

  lemma MultipleGrowsBy(a: int, b: int, d: int)
    requires a >= b && d >= 1
    ensures a * d >= b * d
  {
    assert a * d - b * d == (a - b) * d;
  }

  /** Sum of `n` copies of `h` laid out as running offsets. */
  lemma StartsConstant(h: int, n: nat)
    ensures forall i :: 0 <= i < n ==> Starts(seq(n, _ => h))[i] == i * h
  {
    var s := seq(n, _ => h);
    forall i | 0 <= i < n
      ensures Starts(s)[i] == i * h
    {
      assert s[..i] == seq(i, _ => h);
      SumConstant(h, i);
    }
  }

  /** Exact division undoes multiplication by the width. */
  lemma DivExact(q: int, dimension: nat)
    requires q >= 0 && dimension >= 1
    ensures CDiv(q * dimension, dimension) == q
  {
    var g := CDiv(q * dimension, dimension);
    assert (q - g) * dimension == q * dimension - g * dimension;
    SmallMultipleIsZero(q - g, dimension);
  }

  /** A multiple of `d` that lies in `[0, d)` is zero. */
  lemma SmallMultipleIsZero(k: int, d: int)
    requires d >= 1
    requires 0 <= k * d < d
    ensures k == 0
  {
    if k >= 1 {
      MultipleGrows(k, d);
      assert false;
    } else if k <= -1 {
      MultipleShrinks(k, d);
      assert false;
    }
  }

  lemma MultipleShrinks(k: int, d: int)
    requires k <= -1 && d >= 1
    ensures k * d <= -d
  {
    assert k * d == (k + 1) * d - d;
    assert (k + 1) * d <= 0;
  }

  lemma MultipleGrows(k: int, d: int)
    requires k >= 1 && d >= 1
    ensures k * d >= d
  {
    assert k * d == (k - 1) * d + d;
    assert (k - 1) * d >= 0;
  }

  /** On an even split every element share is `lineNums / p` records' worth. */
  lemma EvenShares(lineNums: nat, processNumber: nat, dimension: nat)
    requires processNumber >= 1
    requires lineNums % processNumber == 0
    ensures Shares(lineNums, processNumber, dimension)
      == seq(processNumber, _ => lineNums / processNumber * dimension)
  {
    var q := lineNums / processNumber;
    var h := q * dimension;
    assert lineNums == q * processNumber;
    assert lineNums * dimension - (processNumber - 1) * h == h by {
      calc {
        lineNums * dimension - (processNumber - 1) * h;
        (q * processNumber) * dimension - (processNumber - 1) * (q * dimension);
        { assert (q * processNumber) * dimension == processNumber * (q * dimension); }
        processNumber * (q * dimension) - (processNumber - 1) * (q * dimension);
        q * dimension;
      }
    }
  }

  /**
   * When the workers divide the lines evenly, every share is the same whole
   * number of records, all offsets fall on record boundaries, and the gather
   * counts add up to the line count.
   */
  lemma {:induction false} EvenSplit(lineNums: nat, processNumber: nat, dimension: nat)
    requires processNumber >= 1 && dimension >= 1
    requires lineNums % processNumber == 0
    ensures forall i :: 0 <= i < processNumber ==>
      Shares(lineNums, processNumber, dimension)[i] == lineNums / processNumber * dimension >= 0
    ensures forall i :: 0 <= i < processNumber ==>
      Shares(lineNums, processNumber, dimension)[i] == HandleNumbers(lineNums, processNumber, dimension)
    ensures forall i :: 0 <= i < processNumber ==>
      Starts(Shares(lineNums, processNumber, dimension))[i] == i * (lineNums / processNumber) * dimension
    ensures forall i :: 0 <= i < processNumber ==>
      Starts(Shares(lineNums, processNumber, dimension))[i] % dimension == 0
    ensures GatherCounts(Shares(lineNums, processNumber, dimension), dimension)
      == seq(processNumber, _ => lineNums / processNumber)
    ensures Sum(GatherCounts(Shares(lineNums, processNumber, dimension), dimension)) == lineNums
  {
    EvenShares(lineNums, processNumber, dimension);
    EvenStarts(Shares(lineNums, processNumber, dimension), lineNums / processNumber, processNumber, dimension);
    EvenGather(lineNums, processNumber, dimension);
  }

  lemma EvenStarts(s: seq<int>, q: nat, processNumber: nat, dimension: nat)
    requires dimension >= 1
    requires s == seq(processNumber, _ => q * dimension)
    ensures forall i :: 0 <= i < processNumber ==> Starts(s)[i] == i * q * dimension
    ensures forall i :: 0 <= i < processNumber ==> Starts(s)[i] % dimension == 0
  {
    StartsConstant(q * dimension, processNumber);
    forall i | 0 <= i < processNumber
      ensures Starts(s)[i] == i * q * dimension
      ensures Starts(s)[i] % dimension == 0
    {
      assert i * (q * dimension) == (i * q) * dimension;
      MultipleMod(i * q, dimension);
    }
  }

  lemma MultipleMod(k: nat, d: nat)
    requires d >= 1
    ensures (k * d) % d == 0
  {
    var m := (k * d) / d;
    assert k * d == m * d + (k * d) % d;
    assert (k - m) * d == (k * d) % d;
    SmallMultipleIsZero(k - m, d);
  }

  lemma EvenGather(lineNums: nat, processNumber: nat, dimension: nat)
    requires processNumber >= 1 && dimension >= 1
    requires lineNums % processNumber == 0
    requires Shares(lineNums, processNumber, dimension)
      == seq(processNumber, _ => lineNums / processNumber * dimension)
    ensures GatherCounts(Shares(lineNums, processNumber, dimension), dimension)
      == seq(processNumber, _ => lineNums / processNumber)
    ensures Sum(GatherCounts(Shares(lineNums, processNumber, dimension), dimension)) == lineNums
  {
    var q := lineNums / processNumber;
    DivExact(q, dimension);
    var g := GatherCounts(Shares(lineNums, processNumber, dimension), dimension);
    assert g == seq(processNumber, _ => q);
    SumConstant(q, processNumber);
    assert lineNums == processNumber * q;
  }

  /** With a remainder the extra ELEMENT can drive the last share negative: 1 line, 10 workers, width 2. */
  lemma RemainderMakesLastShareNegative()
    ensures HandleNumbers(1, 10, 2) == 1
    ensures Shares(1, 10, 2)[9] == -7
  {
  }

  /**
   * With a remainder the shares stop at mid-record offsets and the gather
   * counts lose records: 3 lines of width 2 on 2 workers give element shares
   * 3 and 3, worker 1 starts inside record 1, and only 2 of the 3 labels are gathered.
   */
  lemma RemainderBreaksRecordAlignment()
    ensures Shares(3, 2, 2) == [3, 3]
    ensures Starts(Shares(3, 2, 2))[1] % 2 == 1
    ensures Sum(GatherCounts(Shares(3, 2, 2), 2)) == 2
  {
    var s := Shares(3, 2, 2);
    assert s == [3, 3];
    assert GatherCounts(s, 2) == [1, 1];
    assert Sum([1, 1]) == 2;
  }

  /**
   * With a remainder the last share can also exceed the `handleNumbers`
   * elements every worker receives into: 5 lines of width 2 on 3 workers give
   * shares 3, 3 and 4 against a receive count of 3.
   */
  lemma RemainderOverflowsLastBuffer()
    ensures HandleNumbers(5, 3, 2) == 3
    ensures Shares(5, 3, 2) == [3, 3, 4]
  {
    assert Shares(5, 3, 2) == [3, 3, 4];
  }

  /**
   * The 2D program runs the same plan at width 2: on an even split each worker
   * labels `lineNums / p` points and the gather collects all of them.
   */
  lemma TwoDEvenSplit(lineNums: nat, processNumber: nat)
    requires processNumber >= 1 && lineNums % processNumber == 0
    ensures Sum(Shares(lineNums, processNumber, 2)) == 2 * lineNums
    ensures forall rank :: 0 <= rank < processNumber ==> LocalRows(lineNums, processNumber, 2, rank) == lineNums / processNumber
    ensures Sum(GatherCounts(Shares(lineNums, processNumber, 2), 2)) == lineNums
  {
    EvenSplit(lineNums, processNumber, 2);
  }

  /**
   * Record-aligned plan: workers `0 .. p-2` get `lineNums / p` records each and
   * the last one absorbs the remainder.
   */
  function RecordCounts(lineNums: nat, processNumber: nat): (r: seq<int>)
    requires processNumber >= 1
    ensures |r| == processNumber
    ensures forall i :: 0 <= i < processNumber ==> r[i] >= lineNums / processNumber >= 0
    ensures forall i :: 0 <= i < processNumber - 1 ==> r[i] == lineNums / processNumber
    ensures Sum(r) == lineNums
  {
    var q := lineNums / processNumber;
    var last := lineNums - (processNumber - 1) * q;
    LastGetsAtLeastQuotient(lineNums, processNumber);
    ConstantThenLast(q, processNumber - 1, last)
  }

  /** `n` copies of `h` followed by `last`. */
  function ConstantThenLast(h: int, n: nat, last: int): (r: seq<int>)
    ensures |r| == n + 1 && r[n] == last
    ensures forall i :: 0 <= i < n ==> r[i] == h
    ensures Sum(r) == n * h + last
  {
    SumConstantThenLast(h, n, last);
    seq(n + 1, i => if i < n then h else last)
  }

  /** After `p - 1` workers take the floor quotient, at least that much is left. */
  lemma LastGetsAtLeastQuotient(n: nat, p: nat)
    requires p >= 1
    ensures n - (p - 1) * (n / p) >= n / p
  {
    var q := n / p;
    assert n == q * p + n % p;
    assert (p - 1) * q + q == q * p;
  }

  /**
   * The plan the comment above the `handleNumbers` computation describes
   * (501 lines on 10 workers need 51 lines each, 500 lines need 50):
   * workers `0 .. p-2` get `lineNums / p` records rounded UP, and the last
   * one gets what is left, which can be negative.
   */
  function CeilRecordCounts(lineNums: nat, processNumber: nat): (r: seq<int>)
    requires processNumber >= 1
    ensures |r| == processNumber
    ensures forall i :: 0 <= i < processNumber - 1 ==>
      r[i] >= 0 && (r[i] - 1) * processNumber < lineNums <= r[i] * processNumber
    ensures Sum(r) == lineNums
  {
    var c := (lineNums + processNumber - 1) / processNumber;
    var last := lineNums - (processNumber - 1) * c;
    RoundUp(lineNums, processNumber);
    SumConstantThenLast(c, processNumber - 1, last);
    seq(processNumber, i => if i < processNumber - 1 then c else last)
  }

  /** `(n + p - 1) / p` is `n / p` rounded up. */
  lemma RoundUp(n: nat, p: nat)
    requires p >= 1
    ensures var c := (n + p - 1) / p;
      c >= 0 && (c - 1) * p < n <= c * p
  {
    var c, m := (n + p - 1) / p, (n + p - 1) % p;
    assert n + p - 1 == c * p + m;
    assert (c - 1) * p == c * p - p;
  }

  /** The comment's own examples: 501 lines on 10 workers give nine 51s and 42; 500 lines give ten 50s. */
  lemma CeilPlanAsCommented()
    ensures CeilRecordCounts(501, 10) == seq(9, _ => 51) + [42]
    ensures CeilRecordCounts(500, 10) == seq(10, _ => 50)
  {
  }

  /** Rounding up also leaves the last worker a negative count: 1 line on 10 workers gives it −8. */
  lemma CeilPlanCanGoNegative()
    ensures CeilRecordCounts(1, 10)[9] == -8
  {
  }

  /** On an even split the comment's plan and the floor plan coincide. */
  lemma CeilPlanMatchesWhenEven(lineNums: nat, processNumber: nat)
    requires processNumber >= 1 && lineNums % processNumber == 0
    ensures CeilRecordCounts(lineNums, processNumber) == RecordCounts(lineNums, processNumber)
  {
    CeilOfMultiple(lineNums, processNumber);
    var ceil, floor := CeilRecordCounts(lineNums, processNumber), RecordCounts(lineNums, processNumber);
    assert forall i :: 0 <= i < processNumber ==> ceil[i] == floor[i];
  }

  /** Rounding up a quotient that is exact changes nothing. */
  lemma CeilOfMultiple(n: nat, p: nat)
    requires p >= 1 && n % p == 0
    ensures (n + p - 1) / p == n / p
  {
    var q, c := n / p, (n + p - 1) / p;
    assert n == q * p;
    RoundUp(n, p);
    if c > q {
      MultipleGrowsBy(c - 1, q, p);
    } else if c < q {
      MultipleGrowsBy(q - 1, c, p);
    }
  }

  /** The record-aligned plan in elements: every share is a whole number of records. */
  function AlignedShares(lineNums: nat, processNumber: nat, dimension: nat): (r: seq<int>)
    requires processNumber >= 1
    ensures |r| == processNumber
    ensures forall i :: 0 <= i < processNumber ==> r[i] >= 0
    ensures Sum(r) == lineNums * dimension
  {
    var c := RecordCounts(lineNums, processNumber);
    SumScale(c, dimension);
    seq(processNumber, i requires 0 <= i < processNumber => c[i] * dimension)
  }

  /** Dividing the aligned shares back down gives exactly the record counts. */
  lemma AlignedGatherCounts(lineNums: nat, processNumber: nat, dimension: nat)
    requires processNumber >= 1 && dimension >= 1
    ensures GatherCounts(AlignedShares(lineNums, processNumber, dimension), dimension)
      == RecordCounts(lineNums, processNumber)
  {
    var c := RecordCounts(lineNums, processNumber);
    var g := GatherCounts(AlignedShares(lineNums, processNumber, dimension), dimension);
    forall i | 0 <= i < processNumber
      ensures g[i] == c[i]
    {
      DivExact(c[i], dimension);
    }
  }

  /** Aligned offsets are record offsets times the width. */
  lemma AlignedStartsOnRecordBoundaries(lineNums: nat, processNumber: nat, dimension: nat)
    requires processNumber >= 1
    ensures forall i :: 0 <= i < processNumber ==>
      Starts(AlignedShares(lineNums, processNumber, dimension))[i]
        == Starts(RecordCounts(lineNums, processNumber))[i] * dimension
  {
    var c := RecordCounts(lineNums, processNumber);
    var r := AlignedShares(lineNums, processNumber, dimension);
    forall i | 0 <= i < processNumber
      ensures Starts(r)[i] == Starts(c)[i] * dimension
    {
      assert r[..i] == seq(|c[..i]|, k requires 0 <= k < |c[..i]| => c[..i][k] * dimension);
      SumScale(c[..i], dimension);
    }
  }

  /** On an even split the aligned plan and the as-written plan coincide. */
  lemma {:induction false} AlignedMatchesSharesWhenEven(lineNums: nat, processNumber: nat, dimension: nat)
    requires processNumber >= 1 && dimension >= 1
    requires lineNums % processNumber == 0
    ensures AlignedShares(lineNums, processNumber, dimension) == Shares(lineNums, processNumber, dimension)
  {
    EvenShares(lineNums, processNumber, dimension);
    var q := lineNums / processNumber;
    assert lineNums == processNumber * q;
    assert lineNums - (processNumber - 1) * q == q;
  }

  /** Loop state of the `handleLines` fill loop. */
  datatype FillState = FillState(processIndex: int, processNumber: int)

  /**
   * The fill loop as written increments `processNumber` instead of
   * `processIndex`: the state after `n` iterations.
   */
  function FillLoopAsWritten(s: FillState, n: nat): (r: FillState)
    ensures r.processIndex == s.processIndex
    ensures r.processNumber == s.processNumber + n
    decreases n
  {
    if n == 0 then s
    else FillLoopAsWritten(FillState(s.processIndex, s.processNumber + 1), n - 1)
  }

  /** With at least two workers the as-written guard `processIndex < processNumber - 1` never fails. */
  lemma FillLoopNeverExits(processNumber: int, n: nat)
    requires processNumber >= 2
    ensures var s := FillLoopAsWritten(FillState(0, processNumber), n);
      s.processIndex < s.processNumber - 1
  {
  }
}

=== FILE: seeding.dfy ===
/**
 * Deterministic seeding of the sequential Java program: strand 0 is always
 * the first centroid, then the strands are scanned in order and a strand is
 * kept when it shares at most `MAX_SIM` of the first `DNA_LENGTH` bases with
 * every centroid kept so far. Java exceptions are `Failure` values.
 */
module Seeding {
  import opened Wrappers
  import opened Hamming

  /** `MAX_SIM`. */
  const MaxSim: nat := 18
  /** `DNA_LENGTH`. */
  const DnaLength: nat := 20

  /** The exceptions the seeding can raise; `main` reports both as too few centroids. */
  datatype Error = IndexOutOfBounds | NotEnoughCentroids

  /** The loop of `sim` from position `i` up to `DNA_LENGTH`, on strands long enough. */
  function SimFrom(s1: seq<char>, s2: seq<char>, i: nat): (r: nat)
    requires i <= DnaLength <= |s1| && DnaLength <= |s2|
    ensures r == Agreements(s1, s2, DnaLength) - Agreements(s1, s2, i)
    decreases DnaLength - i
  {
    if i == DnaLength then 0
    else
      AgreementsStep(s1, s2, i);
      (if s1[i] == s2[i] then 1 else 0) + SimFrom(s1, s2, i + 1)
  }

  lemma AgreementsStep(s1: seq<char>, s2: seq<char>, i: nat)
    requires i < DnaLength <= |s1| && DnaLength <= |s2|
    ensures Agreements(s1, s2, i) <= Agreements(s1, s2, DnaLength)
    ensures Agreements(s1, s2, i + 1) == Agreements(s1, s2, i) + if s1[i] == s2[i] then 1 else 0
  {
    AgreementsMonotone(s1, s2, i, DnaLength);
  }

  lemma {:induction false} AgreementsMonotone(s1: seq<char>, s2: seq<char>, i: nat, n: nat)
    requires i <= n <= |s1| && n <= |s2|
    ensures Agreements(s1, s2, i) <= Agreements(s1, s2, n)
    decreases n - i
  {
    if i < n {
      AgreementsMonotone(s1, s2, i, n - 1);
    }
  }

  /**
   * `sim`: the number of equal bases among the first `DNA_LENGTH`; an array
   * index out of bounds when either strand is shorter.
   */
  function Sim(s1: seq<char>, s2: seq<char>): (r: Result<nat, Error>)
    ensures r.Success? <==> DnaLength <= |s1| && DnaLength <= |s2|
    ensures r.Success? ==> r.value == Agreements(s1, s2, DnaLength) && r.value <= DnaLength
    ensures r.Failure? ==> r.error == IndexOutOfBounds
  {
    if |s1| < DnaLength || |s2| < DnaLength then Failure(IndexOutOfBounds)
    else Success(SimFrom(s1, s2, 0))
  }

  /** `sim` against centroid `c` succeeds and stays within `MAX_SIM`. */
  predicate FarEnough(strand: seq<char>, c: seq<char>)
  {
    Sim(strand, c).Success? && Sim(strand, c).value <= MaxSim
  }

  /**
   * Centroid `m` is the first from `i` on that the strand is not far enough
   * from: the one at which the for-each loop of `isVaildCentroid` stops.
   */
  predicate FirstRejectAt(strand: seq<char>, cs: seq<seq<char>>, i: nat, m: nat)
    requires i <= m < |cs|
  {
    && (forall k {:trigger FarEnough(strand, cs[k])} :: i <= k < m ==> FarEnough(strand, cs[k]))
    && !FarEnough(strand, cs[m])
  }

  /**
   * The for-each loop of `isVaildCentroid` from centroid `i` on. Unless every
   * centroid is far enough, the first one that is not decides: `false` when
   * its `sim` exceeds `MAX_SIM`, an exception when `sim` cannot index it.
   */
  function ValidFrom(strand: seq<char>, cs: seq<seq<char>>, i: nat): (r: Result<bool, Error>)
    requires i <= |cs|
    ensures r == Success(true) <==> forall m {:trigger FarEnough(strand, cs[m])} :: i <= m < |cs| ==> FarEnough(strand, cs[m])
    ensures r == Success(false) ==> exists m :: i <= m < |cs| && Sim(strand, cs[m]).Success? && Sim(strand, cs[m]).value > MaxSim
    ensures r.Failure? ==> r.error == IndexOutOfBounds && exists m :: i <= m < |cs| && Sim(strand, cs[m]).Failure?
    ensures r != Success(true) ==>
      exists m :: i <= m < |cs| && FirstRejectAt(strand, cs, i, m) && (r.Failure? <==> Sim(strand, cs[m]).Failure?)
    decreases |cs| - i
  {
    if i == |cs| then Success(true)
    else
      assert FarEnough(strand, cs[i]) <==> Sim(strand, cs[i]).Success? && Sim(strand, cs[i]).value <= MaxSim;
      var s :- Sim(strand, cs[i]);
      if s > MaxSim then
        assert FirstRejectAt(strand, cs, i, i);
        Success(false)
      else
        var r := ValidFrom(strand, cs, i + 1);
        if r == Success(true) then r
        else
          FirstRejectShift(strand, cs, i, r);
          r
  }

  /** A first reject after a centroid that is far enough is the first reject from that centroid on. */
  lemma FirstRejectShift(strand: seq<char>, cs: seq<seq<char>>, i: nat, r: Result<bool, Error>)
    requires i < |cs| && FarEnough(strand, cs[i])
    requires exists m :: i + 1 <= m < |cs| && FirstRejectAt(strand, cs, i + 1, m) && (r.Failure? <==> Sim(strand, cs[m]).Failure?)
    ensures exists m :: i <= m < |cs| && FirstRejectAt(strand, cs, i, m) && (r.Failure? <==> Sim(strand, cs[m]).Failure?)
  {
    var m :| i + 1 <= m < |cs| && FirstRejectAt(strand, cs, i + 1, m) && (r.Failure? <==> Sim(strand, cs[m]).Failure?);
    assert FirstRejectAt(strand, cs, i, m);
  }

  /**
   * `isVaildCentroid`: true when the strand is far enough from every centroid
   * so far, vacuously so with none.
   */
  function IsValidCentroid(strand: seq<char>, cs: seq<seq<char>>): (r: Result<bool, Error>)
    ensures r == Success(true) <==> forall m {:trigger FarEnough(strand, cs[m])} :: 0 <= m < |cs| ==> FarEnough(strand, cs[m])
    ensures |cs| == 0 ==> r == Success(true)
    ensures r.Failure? ==> r.error == IndexOutOfBounds
    ensures r == Success(false) ==> exists m :: 0 <= m < |cs| && Sim(strand, cs[m]).Success? && Sim(strand, cs[m]).value > MaxSim
    ensures r.Failure? ==> exists m :: 0 <= m < |cs| && Sim(strand, cs[m]).Failure?
    ensures r != Success(true) ==>
      exists m :: 0 <= m < |cs| && FirstRejectAt(strand, cs, 0, m) && (r.Failure? <==> Sim(strand, cs[m]).Failure?)
  {
    ValidFrom(strand, cs, 0)
  }

  /** At most one centroid is the first reject from `i` on. */
  lemma FirstRejectUnique(strand: seq<char>, cs: seq<seq<char>>, i: nat, m: nat, m': nat)
    requires i <= m < |cs| && i <= m' < |cs|
    requires FirstRejectAt(strand, cs, i, m) && FirstRejectAt(strand, cs, i, m')
    ensures m == m'
  {
  }

  /**
   * The first centroid the strand is not far enough from fixes the outcome
   * of `isVaildCentroid`: `false` when `sim` succeeds on it, an
   * index-out-of-bounds exception when `sim` cannot index it.
   */
  lemma IsValidCentroidDecided(strand: seq<char>, cs: seq<seq<char>>, m: nat)
    requires m < |cs| && FirstRejectAt(strand, cs, 0, m)
    ensures Sim(strand, cs[m]).Failure? ==> IsValidCentroid(strand, cs) == Failure(IndexOutOfBounds)
    ensures Sim(strand, cs[m]).Success? ==> IsValidCentroid(strand, cs) == Success(false)
  {
    var r := IsValidCentroid(strand, cs);
    assert !FarEnough(strand, cs[m]);
    assert r != Success(true);
    var m' :| 0 <= m' < |cs| && FirstRejectAt(strand, cs, 0, m') && (r.Failure? <==> Sim(strand, cs[m']).Failure?);
    FirstRejectUnique(strand, cs, 0, m, m');
    if Sim(strand, cs[m]).Success? {
      assert r.Success? && r.value != true;
    }
  }

  /**
   * A strand too similar to the first centroid is rejected with `false`,
   * even when a later centroid is too short for `sim` to index.
   */
  lemma RejectBeforeShortCentroid(long: seq<char>, short: seq<char>)
    requires DnaLength <= |long| && |short| < DnaLength
    ensures IsValidCentroid(long, [long, short]) == Success(false)
  {
    DifferencesSelf(long, DnaLength);
    assert Sim(long, long).value == DnaLength;
    assert FirstRejectAt(long, [long, short], 0, 0);
    IsValidCentroidDecided(long, [long, short], 0);
  }

  /**
   * A test a candidate strand must pass against the picks so far. The
   * program's test is `isVaildCentroid`; the loop below is stated for any.
   */
  type Check = (seq<char>, seq<seq<char>>) -> Result<bool, Error>

  /**
   * The `while` loop of `pickCentroids` with acceptance test `accept`:
   * `index` is the next strand to look at and `picks` the centroids so far.
   */
  function PickFrom(accept: Check, strands: seq<seq<char>>, n: int, index: nat, picks: seq<seq<char>>): (r: Result<seq<seq<char>>, Error>)
    requires index <= |strands|
    ensures r.Success? ==> picks <= r.value
    ensures r.Success? ==> |r.value| == if |picks| < n then n else |picks|
    ensures r.Success? ==> |r.value| <= |picks| + (|strands| - index)
    decreases |strands| - index
  {
    if |picks| >= n then Success(picks)
    else if index == |strands| then Failure(NotEnoughCentroids)
    else
      var ok :- accept(strands[index], picks);
      if ok then PickFrom(accept, strands, n, index + 1, picks + [strands[index]])
      else PickFrom(accept, strands, n, index + 1, picks)
  }

  /** `pickCentroids`: strand 0, then first fit over the rest under `isVaildCentroid`. */
  function PickCentroids(strands: seq<seq<char>>, n: int): (r: Result<seq<seq<char>>, Error>)
    ensures |strands| == 0 ==> r == Failure(IndexOutOfBounds)
    ensures r.Success? ==> |r.value| == (if n < 1 then 1 else n) && r.value[0] == strands[0]
    ensures r.Success? ==> |r.value| <= |strands|
  {
    if |strands| == 0 then Failure(IndexOutOfBounds)
    else
      var r := PickFrom(IsValidCentroid, strands, n, 1, [strands[0]]);
      assert r.Success? ==> r.value[0] == [strands[0]][0];
      r
  }

  /** Each pick after the first, which is taken unchecked, passes `accept` against all picks before it. */
  predicate Spread(accept: Check, cs: seq<seq<char>>)
  {
    |cs| <= 1 || (Spread(accept, cs[..|cs| - 1]) && accept(cs[|cs| - 1], cs[..|cs| - 1]) == Success(true))
  }

  /**
   * Picks spread under `isVaildCentroid` are pairwise far apart: every later
   * pick is within `MAX_SIM` of every earlier one.
   */
  lemma {:induction false} SpreadPairwise(cs: seq<seq<char>>)
    requires Spread(IsValidCentroid, cs)
    ensures forall i, m :: 0 <= m < i < |cs| ==> FarEnough(cs[i], cs[m])
  {
    if |cs| > 0 {
      var init := cs[..|cs| - 1];
      SpreadPairwise(init);
      assert IsValidCentroid(cs[|cs| - 1], init) == Success(true);
      forall i, m | 0 <= m < i < |cs|
        ensures FarEnough(cs[i], cs[m])
      {
        if i < |cs| - 1 {
          assert cs[i] == init[i] && cs[m] == init[m];
        } else {
          assert cs[m] == init[m];
        }
      }
    }
  }

  /** Appending a strand that passes `accept` keeps the picks spread. */
  lemma SpreadSnoc(accept: Check, picks: seq<seq<char>>, strand: seq<char>)
    requires Spread(accept, picks) && accept(strand, picks) == Success(true)
    ensures Spread(accept, picks + [strand])
  {
    assert (picks + [strand])[..|picks|] == picks;
  }

  /** On success, every centroid is far enough from every earlier one. */
  lemma PickCentroidsSpread(strands: seq<seq<char>>, n: int)
    ensures PickCentroids(strands, n).Success? ==> Spread(IsValidCentroid, PickCentroids(strands, n).value)
    ensures PickCentroids(strands, n).Success? ==>
      var cs := PickCentroids(strands, n).value;
      forall i, m :: 0 <= m < i < |cs| ==> FarEnough(cs[i], cs[m])
  {
    if |strands| > 0 && PickCentroids(strands, n).Success? {
      var cs, idx, upto := PickCentroidsFirstFit(strands, n);
      SpreadPairwise(cs);
    }
  }

  /** `idx` records, increasingly, where in `strands` each of `cs` was taken from. */
  ghost predicate Embedded(cs: seq<seq<char>>, strands: seq<seq<char>>, idx: seq<int>)
  {
    && |idx| == |cs|
    && (forall a :: 0 <= a < |idx| ==> 0 <= idx[a] < |strands| && cs[a] == strands[idx[a]])
    && (forall a, b :: 0 <= a < b < |idx| ==> idx[a] < idx[b])
  }

  /** Taking the strand at `index`, past every earlier pick, extends the embedding. */
  lemma EmbeddedSnoc(picks: seq<seq<char>>, strands: seq<seq<char>>, idx: seq<int>, index: nat)
    requires Embedded(picks, strands, idx) && index < |strands|
    requires forall a :: 0 <= a < |idx| ==> idx[a] < index
    ensures Embedded(picks + [strands[index]], strands, idx + [index])
    ensures forall a :: 0 <= a < |idx| + 1 ==> (idx + [index])[a] < index + 1
  {
    var next, nextIdx := picks + [strands[index]], idx + [index];
    assert forall a :: 0 <= a < |idx| ==> nextIdx[a] == idx[a] && next[a] == picks[a];
    assert nextIdx[|idx|] == index && next[|idx|] == strands[index];
  }

  /**
   * The scan of `pickCentroids` has looked at strands `0 .. upto-1` and kept
   * `cs`, found at positions `idx`: strand 0 first, every kept strand accepted
   * against the picks before it, and every strand passed over between two
   * picks (or after the last one) rejected against the picks made before
   * reaching it.
   */
  ghost predicate FirstFit(accept: Check, strands: seq<seq<char>>, cs: seq<seq<char>>, idx: seq<int>, upto: nat)
  {
    && Embedded(cs, strands, idx) && |idx| > 0 && idx[0] == 0
    && idx[|idx| - 1] < upto <= |strands|
    && Spread(accept, cs)
    && forall k, s {:trigger accept(strands[s], cs[..k + 1])} ::
         0 <= k < |idx| && idx[k] < s < NextPick(idx, k, upto) ==>
         accept(strands[s], cs[..k + 1]) == Success(false)
  }

  /** Where the gap after pick `k` ends: at the next pick, or at `upto` after the last. */
  function NextPick(idx: seq<int>, k: nat, upto: nat): int
    requires k < |idx|
  {
    if k + 1 < |idx| then idx[k + 1] else upto
  }

  /** Keeping the accepted strand at `upto` extends the scan. */
  lemma FirstFitTake(accept: Check, strands: seq<seq<char>>, cs: seq<seq<char>>, idx: seq<int>, upto: nat)
    requires FirstFit(accept, strands, cs, idx, upto) && upto < |strands|
    requires accept(strands[upto], cs) == Success(true)
    ensures FirstFit(accept, strands, cs + [strands[upto]], idx + [upto], upto + 1)
  {
    var cs', idx' := cs + [strands[upto]], idx + [upto];
    EmbeddedSnoc(cs, strands, idx, upto);
    SpreadSnoc(accept, cs, strands[upto]);
    forall k, s | 0 <= k < |idx'| && idx'[k] < s < NextPick(idx', k, upto + 1)
      ensures accept(strands[s], cs'[..k + 1]) == Success(false)
    {
      assert k < |idx|;
      assert cs'[..k + 1] == cs[..k + 1];
      assert idx'[k] == idx[k];
      if k + 1 < |idx| {
        assert idx'[k + 1] == idx[k + 1];
      }
    }
  }

  /** Passing over the rejected strand at `upto` extends the scan. */
  lemma FirstFitSkip(accept: Check, strands: seq<seq<char>>, cs: seq<seq<char>>, idx: seq<int>, upto: nat)
    requires FirstFit(accept, strands, cs, idx, upto) && upto < |strands|
    requires accept(strands[upto], cs) == Success(false)
    ensures FirstFit(accept, strands, cs, idx, upto + 1)
  {
    forall k, s | 0 <= k < |idx| && idx[k] < s < NextPick(idx, k, upto + 1)
      ensures accept(strands[s], cs[..k + 1]) == Success(false)
    {
      if s == upto {
        assert cs[..k + 1] == cs;
      }
    }
  }

  /** Where the scan of the `pickCentroids` loop stands: picks, their positions, next strand. */
  datatype ScanState = ScanState(picks: seq<seq<char>>, idx: seq<int>, upto: nat)

  /** The state in which the loop from `index` stops, by returning or by throwing. */
  ghost function ScanEnd(accept: Check, strands: seq<seq<char>>, n: int, index: nat, picks: seq<seq<char>>, idx: seq<int>): ScanState
    requires index <= |strands|
    decreases |strands| - index
  {
    if |picks| >= n || index == |strands| then ScanState(picks, idx, index)
    else match accept(strands[index], picks)
      case Success(true) => ScanEnd(accept, strands, n, index + 1, picks + [strands[index]], idx + [index])
      case Success(false) => ScanEnd(accept, strands, n, index + 1, picks, idx)
      case Failure(_) => ScanState(picks, idx, index)
  }

  /** Every step of the loop keeps the scan first fit. */
  lemma {:induction false} ScanEndFirstFit(accept: Check, strands: seq<seq<char>>, n: int, index: nat, picks: seq<seq<char>>, idx: seq<int>)
    requires FirstFit(accept, strands, picks, idx, index)
    ensures var e := ScanEnd(accept, strands, n, index, picks, idx);
      FirstFit(accept, strands, e.picks, e.idx, e.upto)
    decreases |strands| - index
  {
    if |picks| < n && index < |strands| {
      var v := accept(strands[index], picks);
      if v == Success(true) {
        FirstFitTake(accept, strands, picks, idx, index);
        ScanEndFirstFit(accept, strands, n, index + 1, picks + [strands[index]], idx + [index]);
      } else if v == Success(false) {
        FirstFitSkip(accept, strands, picks, idx, index);
        ScanEndFirstFit(accept, strands, n, index + 1, picks, idx);
      }
    }
  }

  /**
   * How the loop ends on success: the picks are the scan's, and the scan
   * stopped right after the `n`-th pick.
   */
  lemma {:induction false} PickFromSucceeds(accept: Check, strands: seq<seq<char>>, n: int, index: nat, picks: seq<seq<char>>, idx: seq<int>)
    requires index <= |strands| && |idx| > 0 && idx[|idx| - 1] < index
    ensures var r, e := PickFrom(accept, strands, n, index, picks), ScanEnd(accept, strands, n, index, picks, idx);
      && |e.idx| > 0
      && (|picks| >= n ==> e == ScanState(picks, idx, index))
      && (r.Success? ==> r.value == e.picks && (|picks| < n ==> e.upto == e.idx[|e.idx| - 1] + 1))
    decreases |strands| - index
  {
    if |picks| < n && index < |strands| {
      var v := accept(strands[index], picks);
      PickFromStep(accept, strands, n, index, picks);
      ScanEndStep(accept, strands, n, index, picks, idx);
      if v == Success(true) {
        var taken, idx' := picks + [strands[index]], idx + [index];
        PickFromSucceeds(accept, strands, n, index + 1, taken, idx');
        if |taken| >= n {
          assert idx'[|idx'| - 1] == index;
        }
      } else if v == Success(false) {
        PickFromSucceeds(accept, strands, n, index + 1, picks, idx);
      }
    }
  }

  /**
   * How the loop fails: short of `n` picks, either the scan ran off the end
   * of the strands ("not enough"), or the test of the strand it stopped at
   * failed, and that failure is the loop's.
   */
  lemma {:induction false} PickFromFails(accept: Check, strands: seq<seq<char>>, n: int, index: nat, picks: seq<seq<char>>, idx: seq<int>)
    requires index <= |strands|
    ensures var r, e := PickFrom(accept, strands, n, index, picks), ScanEnd(accept, strands, n, index, picks, idx);
      r.Failure? ==>
        && |e.picks| < n
        && (|| (e.upto == |strands| && r.error == NotEnoughCentroids)
            || (e.upto < |strands| && accept(strands[e.upto], e.picks) == Failure(r.error)))
    decreases |strands| - index
  {
    if |picks| < n && index < |strands| {
      PickFromStep(accept, strands, n, index, picks);
      ScanEndStep(accept, strands, n, index, picks, idx);
      match accept(strands[index], picks)
      case Success(true) =>
        PickFromFails(accept, strands, n, index + 1, picks + [strands[index]], idx + [index]);
      case Success(false) =>
        PickFromFails(accept, strands, n, index + 1, picks, idx);
      case Failure(_) =>
    }
  }

  /** One step of the scan, by the outcome of `accept` on the strand at `index`. */
  lemma ScanEndStep(accept: Check, strands: seq<seq<char>>, n: int, index: nat, picks: seq<seq<char>>, idx: seq<int>)
    requires index < |strands| && |picks| < n
    ensures var v, e := accept(strands[index], picks), ScanEnd(accept, strands, n, index, picks, idx);
      && (v == Success(true) ==> e == ScanEnd(accept, strands, n, index + 1, picks + [strands[index]], idx + [index]))
      && (v == Success(false) ==> e == ScanEnd(accept, strands, n, index + 1, picks, idx))
      && (v.Failure? ==> e == ScanState(picks, idx, index))
  {
  }

  /** One pass of the loop, by the outcome of `accept` on the strand at `index`. */
  lemma PickFromStep(accept: Check, strands: seq<seq<char>>, n: int, index: nat, picks: seq<seq<char>>)
    requires index < |strands| && |picks| < n
    ensures var v, r := accept(strands[index], picks), PickFrom(accept, strands, n, index, picks);
      && (v == Success(true) ==> r == PickFrom(accept, strands, n, index + 1, picks + [strands[index]]))
      && (v == Success(false) ==> r == PickFrom(accept, strands, n, index + 1, picks))
      && (v.Failure? ==> r == Failure(v.error))
  {
  }

  /**
   * The loop started from strand 0 alone is first fit, for any test: on
   * success it returns the scan's picks and stopped right after the last one;
   * on failure, short of `n` picks, it either ran off the end of the strands
   * or the test failed at the strand where the scan stopped.
   */
  lemma FirstFitFromStrandZero(accept: Check, strands: seq<seq<char>>, n: int) returns (cs: seq<seq<char>>, idx: seq<int>, upto: nat)
    requires |strands| > 0
    ensures var r := PickFrom(accept, strands, n, 1, [strands[0]]);
      && FirstFit(accept, strands, cs, idx, upto)
      && (r.Success? ==> r.value == cs && upto == idx[|idx| - 1] + 1)
      && (r.Failure? ==>
            && |cs| < n
            && (|| (upto == |strands| && r.error == NotEnoughCentroids)
                || (upto < |strands| && accept(strands[upto], cs) == Failure(r.error))))
  {
    var first := [strands[0]];
    assert FirstFit(accept, strands, first, [0], 1);
    ScanEndFirstFit(accept, strands, n, 1, first, [0]);
    PickFromSucceeds(accept, strands, n, 1, first, [0]);
    PickFromFails(accept, strands, n, 1, first, [0]);
    var e := ScanEnd(accept, strands, n, 1, first, [0]);
    cs, idx, upto := e.picks, e.idx, e.upto;
  }

  /**
   * `pickCentroids` is first fit: on success the centroids are exactly the
   * strands a forward scan from strand 0 keeps, every strand it passed over
   * having been rejected, and the scan stopped at the last pick; it fails with
   * "not enough" only after rejecting every remaining strand short of
   * `centroidNum` picks, and with an index error only when a strand's check threw.
   */
  lemma PickCentroidsFirstFit(strands: seq<seq<char>>, n: int) returns (cs: seq<seq<char>>, idx: seq<int>, upto: nat)
    ensures var r := PickCentroids(strands, n);
      |strands| > 0 ==>
        && FirstFit(IsValidCentroid, strands, cs, idx, upto)
        && (r.Success? ==> r.value == cs && upto == idx[|idx| - 1] + 1)
        && (r == Failure(NotEnoughCentroids) ==> upto == |strands| && |cs| < n)
        && (r == Failure(IndexOutOfBounds) ==> upto < |strands| && |cs| < n && IsValidCentroid(strands[upto], cs).Failure?)
  {
    cs, idx, upto := [], [], 0;
    if |strands| > 0 {
      cs, idx, upto := FirstFitFromStrandZero(IsValidCentroid, strands, n);
      assert PickCentroids(strands, n) == PickFrom(IsValidCentroid, strands, n, 1, [strands[0]]);
    }
  }

  /**
   * On success the centroids are strands taken in input order, the first
   * being strand 0: the scan only moves forward and never revisits a strand.
   */
  lemma PickCentroidsInOrder(strands: seq<seq<char>>, n: int)
    requires PickCentroids(strands, n).Success?
    ensures exists idx :: Embedded(PickCentroids(strands, n).value, strands, idx) && idx[0] == 0
  {
    var cs, idx, upto := PickCentroidsFirstFit(strands, n);
  }

  /** With every strand at least `DNA_LENGTH` long, the only failure is running out of strands. */
  lemma LongStrandsOnlyRunOut(strands: seq<seq<char>>, n: int)
    requires |strands| > 0
    requires forall i :: 0 <= i < |strands| ==> DnaLength <= |strands[i]|
    ensures PickCentroids(strands, n).Failure? ==> PickCentroids(strands, n).error == NotEnoughCentroids
  {
    LongStrandsFrom(strands, n, 1, [strands[0]]);
  }

  lemma {:induction false} LongStrandsFrom(strands: seq<seq<char>>, n: int, index: nat, picks: seq<seq<char>>)
    requires index <= |strands|
    requires forall i :: 0 <= i < |strands| ==> DnaLength <= |strands[i]|
    requires forall i :: 0 <= i < |picks| ==> DnaLength <= |picks[i]|
    ensures PickFrom(IsValidCentroid, strands, n, index, picks).Failure? ==> PickFrom(IsValidCentroid, strands, n, index, picks).error == NotEnoughCentroids
    decreases |strands| - index
  {
    if |picks| < n && index < |strands| {
      var v := IsValidCentroid(strands[index], picks);
      if v.Failure? {
        assert false;
      }
      if v.value {
        LongStrandsFrom(strands, n, index + 1, picks + [strands[index]]);
      } else {
        LongStrandsFrom(strands, n, index + 1, picks);
      }
    }
  }
}

=== FILE: tally.dfy ===
/**
 * The per-worker frequency table of the DNA round: a flat int buffer of
 * `cluster * dimension * 4` counters in which record position `j` of a
 * strand labelled `category` bumps the counter at
 * `4 * dimension * category + 4 * j + s`, `s` being the index of its base in
 * A, C, G, T. Any other character bumps nothing.
 */
module Tally {
  import opened Wrappers
  import opened Partition
  import opened Collectives
  import opened Hamming
  import opened Util
  import opened Nearest

  /** `DNA_Components`. */
  const Components: seq<char> := ['A', 'C', 'G', 'T']

  /** The `switch` on a strand character: the index of its base, if it is one. */
  function SymbolIndex(ch: char): (r: Option<nat>)
    ensures r.Some? ==> r.value < 4 && Components[r.value] == ch
    ensures r.None? ==> ch !in Components
  {
    if ch == 'A' then Some(0)
    else if ch == 'C' then Some(1)
    else if ch == 'G' then Some(2)
    else if ch == 'T' then Some(3)
    else None
  }

  /** Index of the counter for base `s` at position `j` of cluster `category`. */
  function Cell(dimension: nat, category: nat, j: nat, s: nat): nat
  {
    4 * dimension * category + 4 * j + s
  }

  /** Every (cluster, position, base) triple in range has its counter inside the buffer. */
  lemma CellInRange(cluster: nat, dimension: nat, category: nat, j: nat, s: nat)
    requires category < cluster && j < dimension && s < 4
    ensures Cell(dimension, category, j, s) < cluster * dimension * 4
  {
    assert 4 * j + s < 4 * dimension;
    assert 4 * dimension * category + 4 * dimension == 4 * dimension * (category + 1);
    assert category + 1 <= cluster;
    assert 4 * dimension * (category + 1) <= 4 * dimension * cluster;
  }

  /** `Cell` inside a buffer of `cluster` clusters, with the bound the buffer needs. */
  function Slot(cluster: nat, dimension: nat, i: nat, j: nat, s: nat): (k: nat)
    requires i < cluster && j < dimension && s < 4
    ensures k == Cell(dimension, i, j, s) && k < cluster * dimension * 4
  {
    CellInRange(cluster, dimension, i, j, s);
    Cell(dimension, i, j, s)
  }

  /** Quotient and remainder are unique. */
  lemma UniqueDivision(q1: int, r1: int, q2: int, r2: int, m: int)
    requires m >= 1
    requires 0 <= r1 < m && 0 <= r2 < m
    requires q1 * m + r1 == q2 * m + r2
    ensures q1 == q2 && r1 == r2
  {
    if r1 <= r2 {
      assert (q1 - q2) * m == r2 - r1;
      SmallMultipleIsZero(q1 - q2, m);
    } else {
      assert (q2 - q1) * m == r1 - r2;
      SmallMultipleIsZero(q2 - q1, m);
    }
  }

  /** Distinct triples in range use distinct counters. */
  lemma CellInjective(dimension: nat, c1: nat, j1: nat, s1: nat, c2: nat, j2: nat, s2: nat)
    requires j1 < dimension && s1 < 4 && j2 < dimension && s2 < 4
    requires Cell(dimension, c1, j1, s1) == Cell(dimension, c2, j2, s2)
    ensures c1 == c2 && j1 == j2 && s1 == s2
  {
    var a1 := c1 * dimension + j1;
    var a2 := c2 * dimension + j2;
    CellAsDigits(dimension, c1, j1, s1);
    CellAsDigits(dimension, c2, j2, s2);
    UniqueDivision(a1, s1, a2, s2, 4);
    UniqueDivision(c1, j1, c2, j2, dimension);
  }

  /** A counter index read as mixed-radix digits (category, position, base). */
  lemma CellAsDigits(dimension: nat, c: nat, j: nat, s: nat)
    ensures Cell(dimension, c, j, s) == (c * dimension + j) * 4 + s
  {
    assert 4 * dimension * c == (c * dimension) * 4;
  }

  /**
   * How many of the first `n` positions of `x`, counted into cluster
   * `category`, land on counter `idx`.
   */
  function Hits(category: nat, x: seq<char>, dimension: nat, n: nat, idx: int): (h: nat)
    requires n <= |x|
    ensures h <= n
  {
    if n == 0 then 0
    else
      Hits(category, x, dimension, n - 1, idx)
      + match SymbolIndex(x[n - 1])
        case Some(s) => if Cell(dimension, category, n - 1, s) == idx then 1 else 0
        case None => 0
  }

  /**
   * Each position `j < dimension` of a record adds exactly one to the counter
   * of its own base in its cluster, and nothing when it is not a base.
   */
  lemma {:induction false} HitsAtCell(category: nat, x: seq<char>, dimension: nat, n: nat, c: nat, j: nat, s: nat)
    requires n <= dimension <= |x|
    requires j < dimension && s < 4
    ensures Hits(category, x, dimension, n, Cell(dimension, c, j, s))
      == if c == category && j < n && SymbolIndex(x[j]) == Some(s) then 1 else 0
  {
    if n > 0 {
      HitsAtCell(category, x, dimension, n - 1, c, j, s);
      match SymbolIndex(x[n - 1])
      case Some(s') =>
        if Cell(dimension, category, n - 1, s') == Cell(dimension, c, j, s) {
          CellInjective(dimension, category, n - 1, s', c, j, s);
        }
      case None =>
    }
  }

  /** The inner loop over one record's positions `0 .. n-1`. */
  function AddPositions(t: seq<int>, cluster: nat, category: nat, x: seq<char>, dimension: nat, n: nat): (r: seq<int>)
    requires |t| == cluster * dimension * 4 && category < cluster
    requires n <= dimension <= |x|
    ensures |r| == |t|
    ensures forall idx :: 0 <= idx < |t| ==> r[idx] == t[idx] + Hits(category, x, dimension, n, idx)
  {
    if n == 0 then t
    else
      var prev := AddPositions(t, cluster, category, x, dimension, n - 1);
      match SymbolIndex(x[n - 1])
      case Some(s) =>
        CellInRange(cluster, dimension, category, n - 1, s);
        var k := Cell(dimension, category, n - 1, s);
        prev[k := prev[k] + 1]
      case None => prev
  }

  /** Sum over records of the counters each one hits at `idx`. */
  function TallyAt(cs: seq<seq<char>>, xs: seq<seq<char>>, dimension: nat, idx: int): (v: nat)
    requires forall i :: 0 <= i < |xs| ==> dimension <= |xs[i]|
    requires forall i :: 0 <= i < |cs| ==> dimension <= |cs[i]|
    requires |cs| > 0 && dimension < MaxDiff
  {
    if |xs| == 0 then 0
    else
      var x := xs[|xs| - 1];
      TallyAt(cs, xs[..|xs| - 1], dimension, idx) + Hits(Label(cs, x, dimension), x, dimension, dimension, idx)
  }

  /**
   * A worker's table for its records `xs`: the zeroed buffer, then every
   * record in order bumps its counters in the cluster of its nearest centroid.
   */
  function LocalTable(cs: seq<seq<char>>, xs: seq<seq<char>>, dimension: nat): (r: seq<int>)
    requires forall i :: 0 <= i < |xs| ==> dimension <= |xs[i]|
    requires forall i :: 0 <= i < |cs| ==> dimension <= |cs[i]|
    requires |cs| > 0 && dimension < MaxDiff
    ensures |r| == |cs| * dimension * 4
    ensures forall idx :: 0 <= idx < |r| ==> r[idx] == TallyAt(cs, xs, dimension, idx)
  {
    if |xs| == 0 then Zeros(|cs| * dimension * 4)
    else
      var x := xs[|xs| - 1];
      var prev := LocalTable(cs, xs[..|xs| - 1], dimension);
      AddPositions(prev, |cs|, Label(cs, x, dimension), x, dimension, dimension)
  }

  /** Record `x` is labelled `category` and holds base `s` at position `j`. */
  predicate Matches(cs: seq<seq<char>>, x: seq<char>, dimension: nat, category: int, j: nat, s: nat)
    requires dimension <= |x|
    requires forall i :: 0 <= i < |cs| ==> dimension <= |cs[i]|
    requires j < dimension
  {
    Label(cs, x, dimension) == category && SymbolIndex(x[j]) == Some(s)
  }

  /** Reference count: the records labelled `category` whose position `j` holds base `s`. */
  ghost function Matching(cs: seq<seq<char>>, xs: seq<seq<char>>, dimension: nat, category: int, j: nat, s: nat): set<int>
    requires forall i :: 0 <= i < |xs| ==> dimension <= |xs[i]|
    requires forall i :: 0 <= i < |cs| ==> dimension <= |cs[i]|
    requires j < dimension
  {
    set i | 0 <= i < |xs| && Matches(cs, xs[i], dimension, category, j, s)
  }

  lemma MatchingStep(cs: seq<seq<char>>, xs: seq<seq<char>>, dimension: nat, category: int, j: nat, s: nat)
    requires forall i :: 0 <= i < |xs| ==> dimension <= |xs[i]|
    requires forall i :: 0 <= i < |cs| ==> dimension <= |cs[i]|
    requires j < dimension && |xs| > 0
    ensures var k := |xs| - 1;
      Matching(cs, xs, dimension, category, j, s)
      == Matching(cs, xs[..k], dimension, category, j, s)
         + (if Matches(cs, xs[k], dimension, category, j, s) then {k} else {})
  {
    var k := |xs| - 1;
    var pre := xs[..k];
    assert forall i :: 0 <= i < k ==> pre[i] == xs[i];
  }

  /**
   * The counter for (cluster, position, base) holds the number of records of
   * that cluster carrying that base at that position.
   */
  lemma {:induction false} TallyCounts(cs: seq<seq<char>>, xs: seq<seq<char>>, dimension: nat, c: nat, j: nat, s: nat)
    requires forall i :: 0 <= i < |xs| ==> dimension <= |xs[i]|
    requires forall i :: 0 <= i < |cs| ==> dimension <= |cs[i]|
    requires |cs| > 0 && dimension < MaxDiff
    requires j < dimension && s < 4
    ensures TallyAt(cs, xs, dimension, Cell(dimension, c, j, s)) == |Matching(cs, xs, dimension, c, j, s)|
  {
    if |xs| > 0 {
      var k := |xs| - 1;
      var x := xs[k];
      TallyCounts(cs, xs[..k], dimension, c, j, s);
      HitsAtCell(Label(cs, x, dimension), x, dimension, dimension, c, j, s);
      MatchingStep(cs, xs, dimension, c, j, s);
      assert k !in Matching(cs, xs[..k], dimension, c, j, s);
    }
  }

  lemma TallyAppend(cs: seq<seq<char>>, xs: seq<seq<char>>, ys: seq<seq<char>>, dimension: nat, idx: int)
    requires forall i :: 0 <= i < |xs| ==> dimension <= |xs[i]|
    requires forall i :: 0 <= i < |ys| ==> dimension <= |ys[i]|
    requires forall i :: 0 <= i < |cs| ==> dimension <= |cs[i]|
    requires |cs| > 0 && dimension < MaxDiff
    ensures TallyAt(cs, xs + ys, dimension, idx) == TallyAt(cs, xs, dimension, idx) + TallyAt(cs, ys, dimension, idx)
  {
    var f := RecordHits(cs, dimension, idx);
    var zs := xs + ys;
    assert forall i :: 0 <= i < |zs| ==> dimension <= |zs[i]|;
    TallyAtIsSum(cs, xs, dimension, idx);
    TallyAtIsSum(cs, ys, dimension, idx);
    TallyAtIsSum(cs, zs, dimension, idx);
    SumOverAppend(f, xs, ys);
  }

  /** What one record adds at `idx`, as a function of the record. */
  function RecordHits(cs: seq<seq<char>>, dimension: nat, idx: int): seq<char> -> nat
    requires forall i :: 0 <= i < |cs| ==> dimension <= |cs[i]|
    requires |cs| > 0 && dimension < MaxDiff
  {
    x => if dimension <= |x| then Hits(Label(cs, x, dimension), x, dimension, dimension, idx) else 0
  }

  /** The sum over records of what `f` gives each one. */
  function SumOver(f: seq<char> -> nat, xs: seq<seq<char>>): nat
  {
    if |xs| == 0 then 0 else SumOver(f, xs[..|xs| - 1]) + f(xs[|xs| - 1])
  }

  /** Summing over two record lists one after the other is adding their sums. */
  lemma {:induction false} SumOverAppend(f: seq<char> -> nat, xs: seq<seq<char>>, ys: seq<seq<char>>)
    ensures SumOver(f, xs + ys) == SumOver(f, xs) + SumOver(f, ys)
  {
    if |ys| == 0 {
      assert xs + ys == xs;
    } else {
      var k := |ys| - 1;
      assert (xs + ys)[..|xs + ys| - 1] == xs + ys[..k];
      SumOverAppend(f, xs, ys[..k]);
    }
  }

  /** The tally at `idx` is the sum over records of what each one hits there. */
  lemma {:induction false} TallyAtIsSum(cs: seq<seq<char>>, xs: seq<seq<char>>, dimension: nat, idx: int)
    requires forall i :: 0 <= i < |xs| ==> dimension <= |xs[i]|
    requires forall i :: 0 <= i < |cs| ==> dimension <= |cs[i]|
    requires |cs| > 0 && dimension < MaxDiff
    ensures TallyAt(cs, xs, dimension, idx) == SumOver(RecordHits(cs, dimension, idx), xs)
  {
    if |xs| > 0 {
      TallyAtIsSum(cs, xs[..|xs| - 1], dimension, idx);
    }
  }

  /** Counting two record lists one after the other is adding their tables. */
  lemma LocalTableAppend(cs: seq<seq<char>>, xs: seq<seq<char>>, ys: seq<seq<char>>, dimension: nat)
    requires forall i :: 0 <= i < |xs| ==> dimension <= |xs[i]|
    requires forall i :: 0 <= i < |ys| ==> dimension <= |ys[i]|
    requires forall i :: 0 <= i < |cs| ==> dimension <= |cs[i]|
    requires |cs| > 0 && dimension < MaxDiff
    ensures LocalTable(cs, xs + ys, dimension) == AddTables(LocalTable(cs, xs, dimension), LocalTable(cs, ys, dimension))
  {
    var zs := xs + ys;
    assert forall i :: 0 <= i < |zs| ==> dimension <= |zs[i]|;
    var both, left, right := LocalTable(cs, zs, dimension), LocalTable(cs, xs, dimension), LocalTable(cs, ys, dimension);
    var sum := AddTables(left, right);
    assert |sum| == |both|;
    forall idx | 0 <= idx < |both|
      ensures both[idx] == sum[idx]
    {
      TallyAppend(cs, xs, ys, dimension, idx);
    }
    assert both == sum;
  }
}

=== FILE: util.dfy ===
/** The integer helpers of the C programs' shared utility file: strand distance, the seeding test and `max`. */
module Util {
  import opened Hamming

  /** Initial "best distance" of the nearest-centroid scan (`MAX_DIFF`, the largest 32-bit int). */
  const MaxDiff: int := 2147483647

  /**
   * `DNADistance`: starts from the full width and counts one down for each
   * agreeing position among the first `dimension`.
   */
  function DnaDistance(centroid: seq<char>, strand: seq<char>, dimension: nat): (sum: int)
    requires dimension <= |centroid| && dimension <= |strand|
    ensures sum == Differences(centroid, strand, dimension)
    ensures 0 <= sum <= dimension
  {
    AgreementsPlusDifferences(centroid, strand, dimension);
    dimension - Agreements(centroid, strand, dimension)
  }

  /** `max`: the first argument when it is strictly larger, otherwise the second. */
  function Max(num1: int, num2: int): (result: int)
    ensures result >= num1 && result >= num2
    ensures result == num1 || result == num2
  {
    if num1 > num2 then num1 else num2
  }

  /** Seeding threshold `(int)(0.3 * dimension)`, taken as the exact rational value truncated. */
  function MinDist(dimension: nat): (m: nat)
    ensures 10 * m <= 3 * dimension < 10 * m + 10
  {
    3 * dimension / 10
  }

  /** `tooSimilar` scanning centroids `i .. num-1`. */
  function TooSimilarFrom(centroids: seq<seq<char>>, source: seq<char>, dimension: nat, num: nat, i: nat): (r: int)
    requires i <= num <= |centroids|
    requires dimension <= |source|
    requires forall k :: 0 <= k < num ==> dimension <= |centroids[k]|
    ensures r == 0 || r == 1
    ensures r == 1 <==> exists k :: i <= k < num && Differences(centroids[k], source, dimension) < MinDist(dimension)
    decreases num - i
  {
    if i == num then 0
    else if DnaDistance(centroids[i], source, dimension) < MinDist(dimension) then 1
    else TooSimilarFrom(centroids, source, dimension, num, i + 1)
  }

  /**
   * `tooSimilar`: 1 when one of the first `num` chosen centroids lies closer than
   * `MinDist(dimension)` to `source`, else 0; centroids from index `num` on are never read.
   */
  function TooSimilar(centroids: seq<seq<char>>, source: seq<char>, dimension: nat, num: nat): (r: int)
    requires num <= |centroids|
    requires dimension <= |source|
    requires forall k :: 0 <= k < num ==> dimension <= |centroids[k]|
    ensures r == 0 || r == 1
    ensures r == 1 <==> exists k :: 0 <= k < num && Differences(centroids[k], source, dimension) < MinDist(dimension)
    ensures num == 0 ==> r == 0
  {
    TooSimilarFrom(centroids, source, dimension, num, 0)
  }
}

=== FILE: vote.dfy ===
/**
 * Majority vote over the four base counts at one position of one cluster.
 * The C programs take the maximum with nested `max` calls and then test
 * A, C, G in turn for equality with it; the Java test driver tests the same
 * symbols with a chain of `>=` comparisons. Both pick a most frequent base
 * and prefer A, then C, then G, then T on ties.
 */
module Vote {
  import opened Wrappers
  import opened Util

  /**
   * `ch` is a most frequent base, and every base earlier in A, C, G, T order
   * is strictly less frequent.
   */
  predicate MajorityChoice(ch: char, a: int, c: int, g: int, t: int)
  {
    || (ch == 'A' && a >= c && a >= g && a >= t)
    || (ch == 'C' && c > a && c >= g && c >= t)
    || (ch == 'G' && g > a && g > c && g >= t)
    || (ch == 'T' && t > a && t > c && t > g)
  }

  /** Exactly one base satisfies the majority rule. */
  lemma MajorityChoiceUnique(x: char, y: char, a: int, c: int, g: int, t: int)
    requires MajorityChoice(x, a, c, g, t) && MajorityChoice(y, a, c, g, t)
    ensures x == y
  {
  }

  /** The C update for one position: `max(a, max(c, max(g, t)))`, then the first base equal to it. */
  function CVote(a: int, c: int, g: int, t: int): (ch: char)
    ensures MajorityChoice(ch, a, c, g, t)
  {
    var resultValue := Max(a, Max(c, Max(g, t)));
    if resultValue == a then 'A'
    else if resultValue == c then 'C'
    else if resultValue == g then 'G'
    else 'T'
  }

  /**
   * The Java update for one position: the first base whose count is `>=` all
   * three others; `None` would mean the chain appended nothing.
   */
  function JavaVote(a: int, c: int, g: int, t: int): (r: Option<string>)
    ensures r.Some? && |r.value| == 1 && MajorityChoice(r.value[0], a, c, g, t)
  {
    if a >= c && a >= g && a >= t then Some("A")
    else if c >= a && c >= g && c >= t then Some("C")
    else if g >= a && g >= c && g >= t then Some("G")
    else if t >= a && t >= c && t >= g then Some("T")
    else None
  }

  /** The two programs' update rules agree on every count vector. */
  lemma VotesAgree(a: int, c: int, g: int, t: int)
    ensures JavaVote(a, c, g, t) == Some([CVote(a, c, g, t)])
  {
    var j := JavaVote(a, c, g, t).value;
    MajorityChoiceUnique(j[0], CVote(a, c, g, t), a, c, g, t);
    assert j == [j[0]];
  }
}

=== FILE: wrappers.dfy ===
/** Failure-compatible result types shared by the model. */
module Wrappers {

  /** A value that may be absent. */
  datatype Option<+T> = None | Some(value: T)

  /** A computation that either yields a value or raises an error. */
  datatype Result<+R, +E> = Success(value: R) | Failure(error: E) {
    predicate IsFailure() {
      Failure?
    }

    function PropagateFailure<U>(): Result<U, E>
      requires Failure?
    {
      Failure(error)
    }

    function Extract(): R
      requires Success?
    {
      value
    }
  }
}
